=== FILE: README.md ===
# Cricket ball-tracking scraper and pitch map, modelled in Dafny

This project models two Python scripts. `scrap_hawkeye_data.py` downloads the HawkEye ball-tracking document for every delivery slot of a T20 match. It writes one CSV row per delivery. `genereate_pitch_map_batter.py` reads two such tables and draws side-by-side pitch maps: pace bowling to one batter and spin bowling to another. It shades the pitch by delivery length and puts a marker where each ball bounced.

The Dafny modules follow the programs' structure:

- `Wrappers`: `Option` and `Result`, used for the exceptions the scripts can raise.
- `Decimal`: Python's `str` of an integer and its inverse, plus `split`/`join` on one separator.
- `Json`: the decoded document as a value tree. It also has the few Python operations applied to it: subscripting (`KeyError` versus a non-subscriptable value), truthiness, comparison with an integer, and `str`.
- `DeliveryRow`: the 55 CSV columns and the 17 sub-objects of the document. A column table says which document field each column copies. `SubObjects` and the four `Read…Facts` functions perform the script's reads in its order.
- `HawkeyeScraper`: the request URL and the overwrite-or-append decision for the CSV file. Also one call of `parse_data_and_add_to_csv` and the driver's 2 × 20 × 9 slot loop.
- `LengthTaxonomy`: a first-match threshold classifier. Both of the pitch map's length classifiers are instances of it.
- `PitchMap`: the pace and spin classifiers, their colour maps and their hand-written region tables.
- `PitchPlot`: input validation and filtering, marker colour, position and legend label, and the y-axis ticks.

The server is a parameter: a function from URL to the decoded response. Files are sequences of lines. Plotting is reduced to the values the plot calls receive.

Two behaviours of the code are easy to miss, and the model keeps both:

- **File creation.** The decision to create the file mixes the document's own `innings` value with the requested `over` and `ball` (scrap_hawkeye_data.py:134). The file is created with a header only by a request for over 1, ball 1 whose document is readable and says innings 1 (`HawkeyeScraper.AddDeliveryCreates`); the requested innings plays no part. When the first ball of the match yields a falsy document, the deliveries that follow are appended to whatever file is already there. Stale lines from an earlier run stay ahead of them; with no file, the result has no header. `HawkeyeScraper.MissingFirstBallLosesHeader` shows both.
- **`ball_type`.** The pitch map's up-front column check does not include `ball_type`. A table without that column fails later, with a `KeyError` (genereate_pitch_map_batter.py:30-31).

## Model

| member | source | states |
|---|---|---|
| Json.Get | scrap_hawkeye_data.py:39-55 | `x[key]` succeeds exactly when `x` is an object holding `key`, and then yields that field. Otherwise it fails with a missing-key error for an object and a not-subscriptable error for anything else. |
| Json.PredecessorText | scrap_hawkeye_data.py:79 | `over_num - 1` formatted as text for an integer; `True` gives "0" and `False` gives "-1". Null, strings, lists and objects raise instead of producing text. |
| Json.Text | scrap_hawkeye_data.py:79 | An integer ball number is written in Python's decimal form, a string as itself, null as "None" and a boolean as "True" or "False". Floats, lists and objects are outside the model and reported as such. |
| Json.EqualsOneExactly | scrap_hawkeye_data.py:134 | For every JSON value, Python's `== 1` holds exactly for the integer 1, `true` and the float 1.0. |
| Decimal.IntToStringRoundTrip | scrap_hawkeye_data.py:16 | The decimal text of any integer parses back to that integer, so the numbers in a URL can be recovered. |
| DeliveryRow.Hand | scrap_hawkeye_data.py:66-72 | A player is "LHB" exactly when the flag is the string "false". Every other flag, including a JSON `false`, gives "RHB". |
| DeliveryRow.DeliveryFactsFollowColumns | scrap_hawkeye_data.py:58-79 | The team, player, bowler and numbering reads succeed exactly when every column of those four groups of the column table can be read. The facts then give, group by group, each column's value in table order. |
| DeliveryRow.BallIdRoundTrip | scrap_hawkeye_data.py:79 | For integer over and ball numbers, `ball_id` is defined and reads back as the zero-based over and the ball. |
| DeliveryRow.ScoreFactsFollowColumns | scrap_hawkeye_data.py:81-90 | The score, wicket and shot reads succeed exactly when every column of those groups can be read. The facts then give each column's value in table order. |
| DeliveryRow.PitchFactsFollowColumns | scrap_hawkeye_data.py:92-108 | The bounce, crease and impact reads succeed exactly when every column of those groups can be read. The facts then give each column's value in table order. |
| DeliveryRow.ReleaseFactsFollowColumns | scrap_hawkeye_data.py:111-122 | The reaction, release and stump reads succeed exactly when every column of those groups can be read. The facts then give each column's value in table order. |
| DeliveryRow.SubObjectsConsistent | scrap_hawkeye_data.py:39-55 | Each bound sub-object is the value found under its key in its parent object. |
| DeliveryRow.ConsistentSubObjects | scrap_hawkeye_data.py:39-55 | Conversely, whenever the objects sit under those keys, the lookups succeed and bind exactly them. |
| DeliveryRow.SubObjectsComplete | scrap_hawkeye_data.py:39-55 | The lookups succeed as soon as every sub-object can be reached from the document root by its chain of keys. |
| DeliveryRow.ProjectRowFollowsSchema | scrap_hawkeye_data.py:58-130 | Given the sub-objects, the reads succeed exactly when every column of the column table can be read. The row then holds each column's value at that column's position. |
| DeliveryRow.RowFollowsSchema | scrap_hawkeye_data.py:39-130 | For the whole document, a row is produced exactly when every column can be read from the root. Cell `i` is then column `i`'s value. |
| DeliveryRow.SchemaMatchesColumns | scrap_hawkeye_data.py:7-12 | The column table has the 55 header names in header order. Column 13 is `innings`, read from the delivery-number object. |
| HawkeyeScraper.DeliveryUrlRoundTrip | scrap_hawkeye_data.py:14-16 | The innings, over, ball and match id can be read back from the URL built for them. |
| HawkeyeScraper.DeliveryUrlInjective | scrap_hawkeye_data.py:14-16 | Two different slots or match ids never share a URL. |
| HawkeyeScraper.WriteRow | scrap_hawkeye_data.py:133-138 | The file is replaced by header and row exactly when the row's innings equals 1 and the requested over and ball are 1. Otherwise the row is appended and the earlier lines are kept. |
| HawkeyeScraper.AddDelivery | scrap_hawkeye_data.py:18-138 | Outcomes of one call:<br>• A failed request ends in an exception with the file unchanged.<br>• A falsy document is skipped without writing.<br>• A truthy document that cannot be read crashes with the reading error and writes nothing.<br>• Otherwise the row is written by the rule above. |
| HawkeyeScraper.AddDeliveryFollowsSchema | scrap_hawkeye_data.py:39-138 | In the model, a truthy document crashes the call exactly when some column of the column table cannot be read. The crash then carries the reading error and the file is unchanged. Otherwise the last line written holds each column's value at that column's position. |
| HawkeyeScraper.AddDeliveryCreates | scrap_hawkeye_data.py:133-136 | A call writes the header exactly when it requests over 1, ball 1 and receives a truthy, readable document whose innings cell equals 1, whatever innings was requested. |
| HawkeyeScraper.InningsCellFromDocument | scrap_hawkeye_data.py:75 | The cell that decides between overwrite and append is the document's own `innings` field. |
| HawkeyeScraper.AddDeliveryAppendOnly | scrap_hawkeye_data.py:137-138 | For any slot other than over 1 ball 1, the old file is a prefix of the new one. |
| HawkeyeScraper.SlotAtIndex | scrap_hawkeye_data.py:144-146 | Every slot of the grid is the one visited at the step its index names. |
| HawkeyeScraper.BeforeByIndex | scrap_hawkeye_data.py:144-146 | One slot comes before another in (innings, over, ball) order exactly when its step index is smaller. |
| HawkeyeScraper.GridOrderedAndComplete | scrap_hawkeye_data.py:144-146 | The driver visits 360 slots, each strictly after the previous one, and every slot of the grid is among them. |
| HawkeyeScraper.EnumerateSlots | scrap_hawkeye_data.py:144-147 | The nested loops produce 360 slots, the `k`-th of which has step index `k`. The list they build is the grid the whole run walks. |
| HawkeyeScraper.RunSlotsKeepsRows | scrap_hawkeye_data.py:141-147 | Over slots that avoid over 1 ball 1, a run keeps every row already in the file, ahead of what it adds. |
| HawkeyeScraper.ScrapeMatchStopsAtFirstFailure | scrap_hawkeye_data.py:141-147 | The script first requests the first ball of the first innings. If that request fails, the exception ends the run and the file, whatever it held, is left as it was. |
| HawkeyeScraper.MissingFirstBallLosesHeader | scrap_hawkeye_data.py:134-138 | With an empty first-ball document and a valid second ball, the run appends one record to whatever the file held: stale lines are kept, and a missing file ends up with one record and no header. |
| LengthTaxonomy.NameInjective | genereate_pitch_map_batter.py:73-88 | Distinct lengths have distinct labels. |
| LengthTaxonomy.Bucket | genereate_pitch_map_batter.py:73-88 | The chosen band is the first whose bound exceeds the distance: every earlier bound is at or below it. |
| LengthTaxonomy.BucketUnique | genereate_pitch_map_batter.py:73-88 | That first-match property determines the band uniquely. |
| LengthTaxonomy.BucketMonotone | genereate_pitch_map_batter.py:73-88 | A larger distance never lands in an earlier band. |
| LengthTaxonomy.ClassifyMonotone | genereate_pitch_map_batter.py:73-88 | When lengths shorten along the table, a larger distance never gets a fuller length. |
| LengthTaxonomy.BoundGoesToNextBand | genereate_pitch_map_batter.py:73-88 | With ascending bounds, a distance equal to a bound gets the next band's length, because the tests are strict. |
| PitchMap.TaxonomiesWellFormed | genereate_pitch_map_batter.py:73-88 | Both threshold tables have ascending bounds and lengths that get shorter, down to "short". |
| PitchMap.PaceIsTaxonomy | genereate_pitch_map_batter.py:73-80 | `classify_length1` is the first-match classifier over bounds 0, 2, 4, 6, 8, 10. |
| PitchMap.SpinIsTaxonomy | genereate_pitch_map_batter.py:82-88 | `classify_length2` is the first-match classifier over bounds 0, 2, 4, 6, 7. |
| PitchMap.ClassifiersMonotone | genereate_pitch_map_batter.py:73-88 | Neither classifier gives a fuller length to a ball that bounced further from the batter. |
| PitchMap.ThresholdsGoToShorterLength | genereate_pitch_map_batter.py:73-88 | A distance exactly on a threshold is classified as the shorter length. |
| PitchMap.SpinLengths | genereate_pitch_map_batter.py:82-88 | The spin classifier never says "full". [4, 6) is "good", [6, 7) "back of length", and 7 or more "short". |
| PitchMap.ColorKeysAreClassifierLabels | genereate_pitch_map_batter.py:73-99 | Each colour map has a key for every label its classifier returns, and each key is such a label. |
| PitchMap.ContiguousOrdered | genereate_pitch_map_batter.py:101-118 | In a contiguous region table, a later band lies wholly below an earlier one. |
| PitchMap.ContiguousCovers | genereate_pitch_map_batter.py:101-118 | Every plotted value between the bottom and the top of a contiguous table lies in some band. |
| PitchMap.OwnerUnique | genereate_pitch_map_batter.py:101-118 | Within a contiguous table, at most one band owns a plotted value. A band owns its top edge; the last band also owns its bottom edge. |
| PitchMap.RegionTablesWellFormed | genereate_pitch_map_batter.py:101-150 | Both region tables:<br>• are contiguous;<br>• span 0 to `pitch_length + 1`;<br>• shade each length once;<br>• use only labels their colour map can look up. |
| PitchMap.PaceRegionsAgree | genereate_pitch_map_batter.py:73-109 | For a distance from −1 to `pitch_length`, the pace region of the classified length contains the plotted value, and it is the band that owns that value. |
| PitchMap.SpinRegionsAgree | genereate_pitch_map_batter.py:82-118 | The same agreement holds between the spin classifier and the spin region table. |
| PitchPlot.OutcomeOf | genereate_pitch_map_batter.py:129 | The outcome is a wicket exactly when runs is −1. Otherwise it is the run count itself. |
| PitchPlot.OutcomeTextInjective | genereate_pitch_map_batter.py:131 | Different outcomes never share a legend text, so "W" cannot clash with a run count. |
| PitchPlot.OutcomeColorRules | genereate_pitch_map_batter.py:120-130 | A wicket is brown and labelled "W", a four red and a six magenta. Exactly the run counts outside {−1, 0, 1, 2, 3, 4, 6} fall back to gray. |
| PitchPlot.PlotDeliveries | genereate_pitch_map_batter.py:126-134 | One marker per delivery, in order, at (`bounce_y`, `pitch_length - bounce_x`). The legend label is given only when no earlier delivery had the same outcome text. |
| PitchPlot.LegendLabelsDistinct | genereate_pitch_map_batter.py:127-134 | Non-empty legend labels are pairwise distinct, and every delivery's outcome text appears as a label at or before it. |
| PitchPlot.FirstOccurrenceLabelled | genereate_pitch_map_batter.py:131-132 | Each outcome text is carried as a label by some marker no later than any delivery having it. |
| PitchPlot.MarkerInItsRegion | genereate_pitch_map_batter.py:133 | A marker for a bounce between −1 and `pitch_length` lies in the shaded band of the length either classifier gives that bounce. Such a band exists in each table and owns the marker's position. |
| PitchPlot.Select | genereate_pitch_map_batter.py:26-31 | Filtering keeps each row satisfying the condition as often as it occurs, and no other row. |
| PitchPlot.SelectSingle | genereate_pitch_map_batter.py:26-31 | A single row is kept exactly when it satisfies the condition. |
| PitchPlot.SelectConcat | genereate_pitch_map_batter.py:26-31 | Filtering a concatenation filters each part and keeps the parts in order. With the single-row case, the result is the rows that satisfy the condition, in their original order. |
| PitchPlot.SelectDeliveries | genereate_pitch_map_batter.py:19-34 | Errors come in the script's order:<br>• the required-columns error exactly when either table lacks `bounce_x`, `bounce_y`, `batter` or `runs`;<br>• then a `ball_type` key error exactly when either table lacks that column;<br>• then the no-deliveries error exactly when no pace ball to batter 1 or no spin ball to batter 2 exists.<br>On success, the two selections are the order-preserving filters of the tables (see SelectConcat). Both are non-empty, and each holds every such ball as often as its table does, and no other ball. |
| PitchPlot.EvenTickCount | genereate_pitch_map_batter.py:167 | `np.arange(0, stop, 2)` has the least count `n` with `2n >= stop`. |
| PitchPlot.YTicksLayout | genereate_pitch_map_batter.py:167-171 | There are twelve ticks, labelled 0, 2, …, 22. Each label reads back as its number, and each tick sits at `pitch_length` minus that number, from the top of the plot down. |

## Left out

- HTTP and JSON decoding are not modelled. The server is a function from URL to `Body(document)` or `RequestFailed`. A connection error and a body that is not JSON are both `RequestFailed`. The script then reaches `if not data` with `data` unbound, so the call ends in an exception (`Crashed(NoResponse)`). The 100-second timeout and the `print` of the failure are left out.
- The CSV file is modelled as a sequence of lines: a header or a record of the 55 cell values. Formatting cells as CSV text (pandas quoting, number formatting, `index=False`) is left out. A missing file and an empty file are the same empty sequence.
- `print` calls and the commented-out JSON dump at scrap_hawkeye_data.py:28-37 are left out.
- Json.Text: Python's `str` of a float (for example a ball number of `2.0`), of a list or of an object is reported as `Unrepresented` rather than modelled. Python would format these as text ("2.0", "[1, 2]", "{'a': 1}"). Float formatting and Python's repr of containers are out of scope.
- Json.PredecessorText: for a float `over_num` the model reports `Unrepresented`. Python would compute `over_num - 1` and print it (`2.0` gives "1.0"). Float formatting is out of scope.
- HawkeyeScraper.AddDelivery: a document whose `over` is a float, or whose `ball` is a float, list or object, ends the call in `Crashed(Unrepresented)` with the file unchanged, and `RunSlots` stops the run there. The script instead formats such a `ball_id` (for example "2.0.3"), writes the row and goes on to the next slot. The model has no text for these values (see the two lines above), so it cannot write that row.
- HawkeyeScraper.AddDeliveryFollowsSchema: "crashes exactly when some column cannot be read" holds for the model. For the float, list and object values of the line above, the script does not crash.
- Real numbers are exact. Distances, bounds and pitch positions are `real`. IEEE rounding of `20.12 - y` and of `np.arange` is not modelled.
- `runs` is an integer in the plot model. pandas reads a column with a missing value as floats. Then `str(4.0)` is "4.0" and NaN gets the default colour; neither is modelled.
- Reading the CSV files (`pd.read_csv`, `FileNotFoundError`) is not modelled. Neither is the broad `except` that prints any error. The model returns the error value instead.
- Markers, shaded bands and y-ticks are reduced to the values their matplotlib calls receive. The pitch outline, stumps, wide lines, figure, titles, axis labels, limits, grid and watermark are not modelled. The y-tick labels come from `f'{tick:.0f}'` applied to whole numbers, so they are written as their integer text.
- The classifiers `classify_length1` and `classify_length2` are passed to `plot_deliveries`, but the script never calls them. The model proves what they compute and how it relates to the shaded regions.
- PitchPlot.MarkerInItsRegion: only bounces from one metre behind the batter's stumps (`bounce_x` = −1) to the bowler's stumps are covered. Outside that range no shaded band exists.
- HawkeyeScraper.RunSlots has no contract of its own. Its behaviour is stated by RunSlotsKeepsRows, MissingFirstBallLosesHeader and ScrapeMatchStopsAtFirstFailure.

=== FILE: decimal.dfy ===
/** Python's `str` of an integer (as used in f-strings), its inverse, and splitting a string
    at a separator character. */
module Decimal {
  import opened Wrappers

  predicate IsDigit(c: char) {
    '0' <= c <= '9'
  }

  predicate AllDigits(s: string) {
    forall k :: 0 <= k < |s| ==> IsDigit(s[k])
  }

  function DigitChar(d: nat): (c: char)
    requires d < 10
    ensures IsDigit(c)
  {
    ('0' as int + d) as char
  }

  function DigitValue(c: char): (d: nat)
    requires IsDigit(c)
    ensures d < 10 && DigitChar(d) == c
  {
    c as int - '0' as int
  }

  /** Decimal digits of `n`, most significant first, without leading zeros. */
  function NatToString(n: nat): (s: string)
    ensures |s| > 0 && AllDigits(s)
    ensures |s| > 1 ==> s[0] != '0'
    decreases n
  {
    if n < 10 then [DigitChar(n)] else NatToString(n / 10) + [DigitChar(n % 10)]
  }

  /** The number a string of decimal digits denotes. */
  function DigitsValue(s: string): nat
    requires AllDigits(s)
    decreases |s|
  {
    if |s| == 0 then 0 else 10 * DigitsValue(s[..|s| - 1]) + DigitValue(s[|s| - 1])
  }

  lemma {:induction false} NatToStringValue(n: nat)
    ensures DigitsValue(NatToString(n)) == n
    decreases n
  {
    var s := NatToString(n);
    if n >= 10 {
      NatToStringValue(n / 10);
      assert s[..|s| - 1] == NatToString(n / 10);
    }
  }

  /** Python's `str(i)`: an optional minus sign followed by the digits of `|i|`. */
  function IntToString(i: int): (s: string)
    ensures |s| > 0
    ensures forall k :: 0 <= k < |s| ==> s[k] == '-' || IsDigit(s[k])
    ensures i >= 0 <==> IsDigit(s[0])
  {
    if i < 0 then "-" + NatToString(-i) else NatToString(i)
  }

  /** Reads a whole string as a non-negative decimal number. */
  function ParseNat(s: string): Option<nat> {
    if |s| > 0 && AllDigits(s) then Some(DigitsValue(s)) else None
  }

  /** Reads a whole string as an optionally negated decimal number. */
  function ParseInt(s: string): Option<int> {
    if |s| > 0 && s[0] == '-' then
      match ParseNat(s[1..])
      case Some(n) => var m: int := n; Some(-m)
      case None => None
    else
      match ParseNat(s)
      case Some(n) => Some(n)
      case None => None
  }

  /** Formatting an integer loses nothing: parsing the text gives the integer back. */
  lemma IntToStringRoundTrip(i: int)
    ensures ParseInt(IntToString(i)) == Some(i)
  {
    if i < 0 {
      NatToStringValue(-i);
      assert IntToString(i)[1..] == NatToString(-i);
    } else {
      NatToStringValue(i);
    }
  }

  lemma IntToStringInjective(i: int, j: int)
    requires IntToString(i) == IntToString(j)
    ensures i == j
  {
    IntToStringRoundTrip(i);
    IntToStringRoundTrip(j);
  }

  /** The pieces of `s` between occurrences of `sep` (Python's `s.split(sep)`). */
  function Split(s: string, sep: char): (parts: seq<string>)
    ensures |parts| > 0
    decreases |s|
  {
    if |s| == 0 then [""]
    else if s[0] == sep then [""] + Split(s[1..], sep)
    else
      var rest := Split(s[1..], sep);
      [[s[0]] + rest[0]] + rest[1..]
  }

  /** The pieces joined with `sep` between neighbours (Python's `sep.join(parts)`). */
  function Join(parts: seq<string>, sep: char): string
    requires |parts| > 0
    decreases |parts|
  {
    if |parts| == 1 then parts[0] else parts[0] + [sep] + Join(parts[1..], sep)
  }

  lemma {:induction false} SplitWithoutSeparator(p: string, sep: char)
    requires sep !in p
    ensures Split(p, sep) == [p]
    decreases |p|
  {
    if |p| > 0 {
      SplitWithoutSeparator(p[1..], sep);
      assert [p[0]] + p[1..] == p;
    }
  }

  lemma {:induction false} SplitAtFirstSeparator(p: string, rest: string, sep: char)
    requires sep !in p
    ensures Split(p + [sep] + rest, sep) == [p] + Split(rest, sep)
    decreases |p|
  {
    var s := p + [sep] + rest;
    if |p| == 0 {
      assert s[1..] == rest;
    } else {
      SplitAtFirstSeparator(p[1..], rest, sep);
      assert s[1..] == p[1..] + [sep] + rest;
      assert [p[0]] + p[1..] == p;
    }
  }

  /** Splitting undoes joining when no piece contains the separator. */
  lemma {:induction false} SplitJoin(parts: seq<string>, sep: char)
    requires |parts| > 0
    requires forall k :: 0 <= k < |parts| ==> sep !in parts[k]
    ensures Split(Join(parts, sep), sep) == parts
    decreases |parts|
  {
    if |parts| == 1 {
      SplitWithoutSeparator(parts[0], sep);
    } else {
      SplitJoin(parts[1..], sep);
      SplitAtFirstSeparator(parts[0], Join(parts[1..], sep), sep);
      assert [parts[0]] + parts[1..] == parts;
    }
  }

  lemma IntToStringHasNo(i: int, c: char)
    requires c != '-' && !IsDigit(c)
    ensures c !in IntToString(i)
  {
  }
}

=== FILE: delivery_row.dfy ===
/** Projection of one HawkEye delivery document into the flat 55-column CSV row
    (scrap_hawkeye_data.py:7-12 and 39-130).

    Two descriptions of the same projection live here. `ExtractRow` follows the script
    step by step: first the nested sub-objects are looked up in the script's order, then the
    fields are read in the script's order and assembled in column order. `Schema` is a
    declarative table saying, for every column, which sub-object and key it comes from, and
    `RowFollowsSchema` proves that the two agree. */
module DeliveryRow {
  import opened Wrappers
  import opened Decimal
  import opened Json

  type Row = seq<Value>

  /** The output columns, in the order the CSV header lists them (scrap_hawkeye_data.py:7-12),
      grouped as the column table below groups them. */
  const Columns: seq<string> :=
    ["country", "format", "batting_team", "bowling_team", "home_for_bat", "home_for_bowl"] +
    ["batter", "bat_id", "bat_hand", "nonstriker", "nonstriker_hand"] +
    ["bowler", "bowler_id", "innings"] +
    ["ball_id", "over_num", "ball_num", "ball_type"] +
    ["runs", "boundary", "extras", "extras_type"] +
    ["is_wicket", "wicket_type", "wickets_taken", "shot_attack", "shot_played",
     "shot_type_additional"] +
    ["bounce_angle", "bounce_x", "bounce_y", "bounce_z", "cof", "cor"] +
    ["crease_x", "crease_y", "crease_z", "deviation", "drop_angle", "hit_stumps"] +
    ["impact_x", "impact_y", "impact_z"] +
    ["react_time_to_crease", "react_time_to_intercept", "pbr", "release_speed"] +
    ["release_x", "release_y", "release_z", "initial_angle", "swing", "stump_x", "stump_y",
     "stump_z"]

  /** Position of the `innings` column, whose value decides between overwriting and appending. */
  const InningsColumn: nat := 13

  /** The nested objects of a delivery document that the script reads fields from. */
  datatype Part =
    | Document | MatchData | BattingTeam | BowlingTeam | Batter | NonStriker | Bowler
    | DeliveryInfo | Trajectory | Bounce | Stump | Crease | Impact | Release
    | ShotInfo | ScoreInfo | WicketInfo | DeliveryNumber

  /** Where a sub-object sits: the object enclosing it and its key there. */
  function Location(p: Part): (Part, string)
    requires p != Document
  {
    match p
    case MatchData => (Document, "match")
    case BattingTeam => (MatchData, "battingTeam")
    case BowlingTeam => (MatchData, "bowlingTeam")
    case Batter => (BattingTeam, "batsman")
    case NonStriker => (BattingTeam, "batsmanPartner")
    case Bowler => (BowlingTeam, "bowler")
    case DeliveryInfo => (MatchData, "delivery")
    case Trajectory => (DeliveryInfo, "trajectory")
    case Bounce => (Trajectory, "bouncePosition")
    case Stump => (Trajectory, "stumpPosition")
    case Crease => (Trajectory, "creasePosition")
    case Impact => (Trajectory, "impactPosition")
    case Release => (Trajectory, "releasePosition")
    case ShotInfo => (DeliveryInfo, "shotInformation")
    case ScoreInfo => (DeliveryInfo, "scoringInformation")
    case WicketInfo => (ScoreInfo, "wicket")
    case DeliveryNumber => (DeliveryInfo, "deliveryNumber")
  }

  function Depth(p: Part): nat {
    match p
    case Document => 0
    case MatchData => 1
    case BattingTeam | BowlingTeam | DeliveryInfo => 2
    case Batter | NonStriker | Bowler | Trajectory | ShotInfo | ScoreInfo | DeliveryNumber => 3
    case Bounce | Stump | Crease | Impact | Release | WicketInfo => 4
  }

  /** The sub-object `p` of `doc`, found by following `Location` from the document root. */
  function Resolve(doc: Value, p: Part): Result<Value, Error>
    decreases Depth(p)
  {
    if p == Document then Success(doc)
    else
      var (outer, key) := Location(p);
      var o :- Resolve(doc, outer);
      Get(o, key)
  }

  /** Where a column's value comes from. */
  datatype Source =
    | Field(part: Part, key: string)        // copied from `part[key]`
    | Handedness(part: Part, key: string)   // "LHB" or "RHB" derived from `part[key]`
    | BallNumbering                         // "{over-1}.{ball}" from the delivery number

  datatype Column = Column(name: string, source: Source)

  /** The column table: which field of the document each output column holds. The groups
      follow the blocks of field reads at scrap_hawkeye_data.py:58-122. */
  const Schema: seq<Column> :=
    TeamColumns + PlayerColumns + BowlerColumns + NumberingColumns + ScoreColumns + WicketShotColumns +
    BounceColumns + CreaseColumns + ImpactColumns + ReactionColumns + ReleaseColumns

  const TeamColumns: seq<Column> :=
    [Column("country", Field(Document, "country")),
     Column("format", Field(Document, "format")),
     Column("batting_team", Field(BattingTeam, "name")),
     Column("bowling_team", Field(BowlingTeam, "name")),
     Column("home_for_bat", Field(BattingTeam, "home")),
     Column("home_for_bowl", Field(BowlingTeam, "home"))]

  const PlayerColumns: seq<Column> :=
    [Column("batter", Field(Batter, "name")),
     Column("bat_id", Field(Batter, "id")),
     Column("bat_hand", Handedness(Batter, "isRightHanded")),
     Column("nonstriker", Field(NonStriker, "name")),
     Column("nonstriker_hand", Handedness(NonStriker, "isRightHanded"))]

  const BowlerColumns: seq<Column> :=
    [Column("bowler", Field(Bowler, "name")),
     Column("bowler_id", Field(Bowler, "id")),
     Column("innings", Field(DeliveryNumber, "innings"))]

  const NumberingColumns: seq<Column> :=
    [Column("ball_id", BallNumbering),
     Column("over_num", Field(DeliveryNumber, "over")),
     Column("ball_num", Field(DeliveryNumber, "ball")),
     Column("ball_type", Field(DeliveryInfo, "deliveryType"))]

  const ScoreColumns: seq<Column> :=
    [Column("runs", Field(ScoreInfo, "score")),
     Column("boundary", Field(ScoreInfo, "boundary")),
     Column("extras", Field(ScoreInfo, "extrasScore")),
     Column("extras_type", Field(ScoreInfo, "extrasType"))]

  const WicketShotColumns: seq<Column> :=
    [Column("is_wicket", Field(WicketInfo, "isWicket")),
     Column("wicket_type", Field(WicketInfo, "wicketType")),
     Column("wickets_taken", Field(WicketInfo, "wicketsTaken")),
     Column("shot_attack", Field(ShotInfo, "shotAttacked")),
     Column("shot_played", Field(ShotInfo, "shotPlayed")),
     Column("shot_type_additional", Field(ShotInfo, "shotTypeAdditional"))]

  const BounceColumns: seq<Column> :=
    [Column("bounce_angle", Field(Trajectory, "bounceAngle")),
     Column("bounce_x", Field(Bounce, "x")),
     Column("bounce_y", Field(Bounce, "y")),
     Column("bounce_z", Field(Bounce, "z")),
     Column("cof", Field(Trajectory, "cof")),
     Column("cor", Field(Trajectory, "cor"))]

  const CreaseColumns: seq<Column> :=
    [Column("crease_x", Field(Crease, "x")),
     Column("crease_y", Field(Crease, "y")),
     Column("crease_z", Field(Crease, "z")),
     Column("deviation", Field(Trajectory, "deviation")),
     Column("drop_angle", Field(Trajectory, "dropAngle")),
     Column("hit_stumps", Field(Trajectory, "hitStumps"))]

  const ImpactColumns: seq<Column> :=
    [Column("impact_x", Field(Impact, "x")),
     Column("impact_y", Field(Impact, "y")),
     Column("impact_z", Field(Impact, "z"))]

  const ReactionColumns: seq<Column> :=
    [Column("react_time_to_crease", Field(Trajectory, "reactionTime(to crease)")),
     Column("react_time_to_intercept", Field(Trajectory, "reactionTime(to interception)")),
     Column("pbr", Field(Trajectory, "pbr")),
     Column("release_speed", Field(Trajectory, "releaseSpeed"))]

  const ReleaseColumns: seq<Column> :=
    [Column("release_x", Field(Release, "x")),
     Column("release_y", Field(Release, "y")),
     Column("release_z", Field(Release, "z")),
     Column("initial_angle", Field(Trajectory, "initialAngle")),
     Column("swing", Field(Trajectory, "swing")),
     Column("stump_x", Field(Stump, "x")),
     Column("stump_y", Field(Stump, "y")),
     Column("stump_z", Field(Stump, "z"))]

  /** Batting hand as the script derives it: left-handed only when the field is the string
      "false"; a JSON boolean `false`, a missing-looking value or anything else gives "RHB". */
  function Hand(isRightHanded: Value): (h: string)
    ensures h == "LHB" <==> isRightHanded == JStr("false")
    ensures h == "RHB" <==> isRightHanded != JStr("false")
  {
    if isRightHanded == JStr("false") then "LHB" else "RHB"
  }

  /** The `ball_id` text `"{over - 1}.{ball}"`. */
  function BallId(over: Value, ball: Value): Result<string, Error> {
    var o :- PredecessorText(over);
    var b :- Text(ball);
    Success(o + "." + b)
  }

  /** Reads a `ball_id` back into the zero-based over and the ball number. */
  function ParseBallId(id: string): Option<(int, int)> {
    var parts := Split(id, '.');
    if |parts| != 2 then None
    else
      match (ParseInt(parts[0]), ParseInt(parts[1]))
      case (Some(o), Some(b)) => Some((o, b))
      case _ => None
  }

  /** For integer over and ball numbers the `ball_id` text is defined and determines both:
      it reads back as the zero-based over and the ball. */
  lemma BallIdRoundTrip(over: int, ball: int)
    ensures BallId(JInt(over), JInt(ball)).Success?
    ensures ParseBallId(BallId(JInt(over), JInt(ball)).value) == Some((over - 1, ball))
  {
    var o := IntToString(over - 1);
    var b := IntToString(ball);
    IntToStringHasNo(over - 1, '.');
    IntToStringHasNo(ball, '.');
    assert o + "." + b == o + ['.'] + b;
    SplitAtFirstSeparator(o, b, '.');
    SplitWithoutSeparator(b, '.');
    IntToStringRoundTrip(over - 1);
    IntToStringRoundTrip(ball);
  }

  /** The value of one column, read straight from the document through `Resolve`. */
  function ColumnValue(doc: Value, src: Source): Result<Value, Error> {
    match src
    case Field(p, key) =>
      var o :- Resolve(doc, p);
      Get(o, key)
    case Handedness(p, key) =>
      var o :- Resolve(doc, p);
      var flag :- Get(o, key);
      Success(JStr(Hand(flag)))
    case BallNumbering =>
      var dn :- Resolve(doc, DeliveryNumber);
      var over :- Get(dn, "over");
      var ball :- Get(dn, "ball");
      var id :- BallId(over, ball);
      Success(JStr(id))
  }

  /** The sub-objects the script binds to local names before reading any field. */
  datatype Parts = Parts(
    document: Value, matchData: Value, battingTeam: Value, bowlingTeam: Value,
    batter: Value, nonStriker: Value, bowler: Value, deliveryInfo: Value,
    trajectory: Value, bounce: Value, stump: Value, crease: Value, impact: Value,
    release: Value, shotInfo: Value, scoreInfo: Value, wicketInfo: Value,
    deliveryNumber: Value)
  {
    function At(p: Part): Value {
      match p
      case Document => document
      case MatchData => matchData
      case BattingTeam => battingTeam
      case BowlingTeam => bowlingTeam
      case Batter => batter
      case NonStriker => nonStriker
      case Bowler => bowler
      case DeliveryInfo => deliveryInfo
      case Trajectory => trajectory
      case Bounce => bounce
      case Stump => stump
      case Crease => crease
      case Impact => impact
      case Release => release
      case ShotInfo => shotInfo
      case ScoreInfo => scoreInfo
      case WicketInfo => wicketInfo
      case DeliveryNumber => deliveryNumber
    }
  }

  /** The sub-object lookups, in the script's order; the first missing key raises. */
  function SubObjects(data: Value): Result<Parts, Error> {
    var matchData :- Get(data, "match");
    var battingTeam :- Get(matchData, "battingTeam");
    var bowlingTeam :- Get(matchData, "bowlingTeam");
    var batter :- Get(battingTeam, "batsman");
    var nonStriker :- Get(battingTeam, "batsmanPartner");
    var bowler :- Get(bowlingTeam, "bowler");
    var deliveryInfo :- Get(matchData, "delivery");
    var trajectory :- Get(deliveryInfo, "trajectory");
    var bounce :- Get(trajectory, "bouncePosition");
    var stump :- Get(trajectory, "stumpPosition");
    var crease :- Get(trajectory, "creasePosition");
    var impact :- Get(trajectory, "impactPosition");
    var release :- Get(trajectory, "releasePosition");
    var shotInfo :- Get(deliveryInfo, "shotInformation");
    var scoreInfo :- Get(deliveryInfo, "scoringInformation");
    var wicketInfo :- Get(scoreInfo, "wicket");
    var deliveryNumber :- Get(deliveryInfo, "deliveryNumber");
    Success(Parts(data, matchData, battingTeam, bowlingTeam, batter, nonStriker, bowler,
                  deliveryInfo, trajectory, bounce, stump, crease, impact, release,
                  shotInfo, scoreInfo, wicketInfo, deliveryNumber))
  }

  /** Fields read at scrap_hawkeye_data.py:58-79: teams, players, delivery numbering. */
  datatype DeliveryFacts = DeliveryFacts(
    country: Value, format: Value, battingTeam: Value, bowlingTeam: Value,
    homeForBat: Value, homeForBowl: Value, batter: Value, batId: Value, batHand: string,
    nonStriker: Value, nonStrikerHand: string, bowler: Value, bowlerId: Value,
    innings: Value, overNum: Value, ballNum: Value, ballType: Value, ballId: string)

  /** Fields read at lines 81-90: score, wicket and shot. */
  datatype ScoreFacts = ScoreFacts(
    runs: Value, boundary: Value, extras: Value, extrasType: Value,
    isWicket: Value, wicketType: Value, wicketsTaken: Value,
    shotAttack: Value, shotPlayed: Value, shotTypeAdditional: Value)

  /** Fields read at lines 92-108: bounce, crease and impact. */
  datatype PitchFacts = PitchFacts(
    bounceAngle: Value, bounceX: Value, bounceY: Value, bounceZ: Value, cof: Value, cor: Value,
    creaseX: Value, creaseY: Value, creaseZ: Value, deviation: Value, dropAngle: Value,
    hitStumps: Value, impactX: Value, impactY: Value, impactZ: Value)

  /** Fields read at lines 111-122: reaction times, release and stump position. */
  datatype ReleaseFacts = ReleaseFacts(
    reactToCrease: Value, reactToIntercept: Value, pbr: Value, releaseSpeed: Value,
    releaseX: Value, releaseY: Value, releaseZ: Value, swing: Value, initialAngle: Value,
    stumpX: Value, stumpY: Value, stumpZ: Value)

  function ReadDeliveryFacts(q: Parts): (r: Result<DeliveryFacts, Error>)
    ensures r.Success? <==>
      && Get(q.document, "country").Success?
      && Get(q.document, "format").Success?
      && Get(q.battingTeam, "name").Success?
      && Get(q.bowlingTeam, "name").Success?
      && Get(q.battingTeam, "home").Success?
      && Get(q.bowlingTeam, "home").Success?
      && Get(q.batter, "name").Success?
      && Get(q.batter, "id").Success?
      && Get(q.batter, "isRightHanded").Success?
      && Get(q.nonStriker, "name").Success?
      && Get(q.nonStriker, "isRightHanded").Success?
      && Get(q.bowler, "name").Success?
      && Get(q.bowler, "id").Success?
      && Get(q.deliveryNumber, "innings").Success?
      && Get(q.deliveryInfo, "deliveryType").Success?
      && Get(q.deliveryNumber, "over").Success?
      && Get(q.deliveryNumber, "ball").Success?
      && BallId(Get(q.deliveryNumber, "over").value, Get(q.deliveryNumber, "ball").value).Success?
    ensures r.Success? ==>
      && Get(q.document, "country") == Success(r.value.country)
      && Get(q.document, "format") == Success(r.value.format)
      && Get(q.battingTeam, "name") == Success(r.value.battingTeam)
      && Get(q.bowlingTeam, "name") == Success(r.value.bowlingTeam)
      && Get(q.battingTeam, "home") == Success(r.value.homeForBat)
      && Get(q.bowlingTeam, "home") == Success(r.value.homeForBowl)
      && Get(q.batter, "name") == Success(r.value.batter)
      && Get(q.batter, "id") == Success(r.value.batId)
      && Get(q.batter, "isRightHanded").Success?
      && r.value.batHand == Hand(Get(q.batter, "isRightHanded").value)
      && Get(q.nonStriker, "name") == Success(r.value.nonStriker)
      && Get(q.nonStriker, "isRightHanded").Success?
      && r.value.nonStrikerHand == Hand(Get(q.nonStriker, "isRightHanded").value)
      && Get(q.bowler, "name") == Success(r.value.bowler)
      && Get(q.bowler, "id") == Success(r.value.bowlerId)
      && Get(q.deliveryNumber, "innings") == Success(r.value.innings)
      && Get(q.deliveryNumber, "over") == Success(r.value.overNum)
      && Get(q.deliveryNumber, "ball") == Success(r.value.ballNum)
      && Get(q.deliveryInfo, "deliveryType") == Success(r.value.ballType)
      && BallId(r.value.overNum, r.value.ballNum) == Success(r.value.ballId)
  {
    var country :- Get(q.document, "country");
    var format :- Get(q.document, "format");
    var battingTeam :- Get(q.battingTeam, "name");
    var bowlingTeam :- Get(q.bowlingTeam, "name");
    var homeForBat :- Get(q.battingTeam, "home");
    var homeForBowl :- Get(q.bowlingTeam, "home");
    var batter :- Get(q.batter, "name");
    var batId :- Get(q.batter, "id");
    var batFlag :- Get(q.batter, "isRightHanded");
    var nonStriker :- Get(q.nonStriker, "name");
    var nonStrikerFlag :- Get(q.nonStriker, "isRightHanded");
    var bowler :- Get(q.bowler, "name");
    var bowlerId :- Get(q.bowler, "id");
    var innings :- Get(q.deliveryNumber, "innings");
    var overNum :- Get(q.deliveryNumber, "over");
    var ballNum :- Get(q.deliveryNumber, "ball");
    var ballType :- Get(q.deliveryInfo, "deliveryType");
    var ballId :- BallId(overNum, ballNum);
    Success(DeliveryFacts(country, format, battingTeam, bowlingTeam, homeForBat, homeForBowl,
                          batter, batId, Hand(batFlag), nonStriker, Hand(nonStrikerFlag),
                          bowler, bowlerId, innings, overNum, ballNum, ballType, ballId))
  }

  function ReadScoreFacts(q: Parts): (r: Result<ScoreFacts, Error>)
    ensures r.Success? <==>
      && Get(q.scoreInfo, "score").Success?
      && Get(q.scoreInfo, "boundary").Success?
      && Get(q.scoreInfo, "extrasScore").Success?
      && Get(q.scoreInfo, "extrasType").Success?
      && Get(q.wicketInfo, "isWicket").Success?
      && Get(q.wicketInfo, "wicketType").Success?
      && Get(q.wicketInfo, "wicketsTaken").Success?
      && Get(q.shotInfo, "shotAttacked").Success?
      && Get(q.shotInfo, "shotPlayed").Success?
      && Get(q.shotInfo, "shotTypeAdditional").Success?
    ensures r.Success? ==>
      && Get(q.scoreInfo, "score") == Success(r.value.runs)
      && Get(q.scoreInfo, "boundary") == Success(r.value.boundary)
      && Get(q.scoreInfo, "extrasScore") == Success(r.value.extras)
      && Get(q.scoreInfo, "extrasType") == Success(r.value.extrasType)
      && Get(q.wicketInfo, "isWicket") == Success(r.value.isWicket)
      && Get(q.wicketInfo, "wicketType") == Success(r.value.wicketType)
      && Get(q.wicketInfo, "wicketsTaken") == Success(r.value.wicketsTaken)
      && Get(q.shotInfo, "shotAttacked") == Success(r.value.shotAttack)
      && Get(q.shotInfo, "shotPlayed") == Success(r.value.shotPlayed)
      && Get(q.shotInfo, "shotTypeAdditional") == Success(r.value.shotTypeAdditional)
  {
    var runs :- Get(q.scoreInfo, "score");
    var boundary :- Get(q.scoreInfo, "boundary");
    var extras :- Get(q.scoreInfo, "extrasScore");
    var extrasType :- Get(q.scoreInfo, "extrasType");
    var isWicket :- Get(q.wicketInfo, "isWicket");
    var wicketType :- Get(q.wicketInfo, "wicketType");
    var wicketsTaken :- Get(q.wicketInfo, "wicketsTaken");
    var shotAttack :- Get(q.shotInfo, "shotAttacked");
    var shotPlayed :- Get(q.shotInfo, "shotPlayed");
    var shotTypeAdditional :- Get(q.shotInfo, "shotTypeAdditional");
    Success(ScoreFacts(runs, boundary, extras, extrasType, isWicket, wicketType, wicketsTaken,
                       shotAttack, shotPlayed, shotTypeAdditional))
  }

  function ReadPitchFacts(q: Parts): (r: Result<PitchFacts, Error>)
    ensures r.Success? <==>
      && Get(q.trajectory, "bounceAngle").Success?
      && Get(q.bounce, "x").Success?
      && Get(q.bounce, "y").Success?
      && Get(q.bounce, "z").Success?
      && Get(q.trajectory, "cof").Success?
      && Get(q.trajectory, "cor").Success?
      && Get(q.crease, "x").Success?
      && Get(q.crease, "y").Success?
      && Get(q.crease, "z").Success?
      && Get(q.trajectory, "deviation").Success?
      && Get(q.trajectory, "dropAngle").Success?
      && Get(q.trajectory, "hitStumps").Success?
      && Get(q.impact, "x").Success?
      && Get(q.impact, "y").Success?
      && Get(q.impact, "z").Success?
    ensures r.Success? ==>
      && Get(q.trajectory, "bounceAngle") == Success(r.value.bounceAngle)
      && Get(q.bounce, "x") == Success(r.value.bounceX)
      && Get(q.bounce, "y") == Success(r.value.bounceY)
      && Get(q.bounce, "z") == Success(r.value.bounceZ)
      && Get(q.trajectory, "cof") == Success(r.value.cof)
      && Get(q.trajectory, "cor") == Success(r.value.cor)
      && Get(q.crease, "x") == Success(r.value.creaseX)
      && Get(q.crease, "y") == Success(r.value.creaseY)
      && Get(q.crease, "z") == Success(r.value.creaseZ)
      && Get(q.trajectory, "deviation") == Success(r.value.deviation)
      && Get(q.trajectory, "dropAngle") == Success(r.value.dropAngle)
      && Get(q.trajectory, "hitStumps") == Success(r.value.hitStumps)
      && Get(q.impact, "x") == Success(r.value.impactX)
      && Get(q.impact, "y") == Success(r.value.impactY)
      && Get(q.impact, "z") == Success(r.value.impactZ)
  {
    var bounceAngle :- Get(q.trajectory, "bounceAngle");
    var bounceX :- Get(q.bounce, "x");
    var bounceY :- Get(q.bounce, "y");
    var bounceZ :- Get(q.bounce, "z");
    var cof :- Get(q.trajectory, "cof");
    var cor :- Get(q.trajectory, "cor");
    var creaseX :- Get(q.crease, "x");
    var creaseY :- Get(q.crease, "y");
    var creaseZ :- Get(q.crease, "z");
    var deviation :- Get(q.trajectory, "deviation");
    var dropAngle :- Get(q.trajectory, "dropAngle");
    var hitStumps :- Get(q.trajectory, "hitStumps");
    var impactX :- Get(q.impact, "x");
    var impactY :- Get(q.impact, "y");
    var impactZ :- Get(q.impact, "z");
    Success(PitchFacts(bounceAngle, bounceX, bounceY, bounceZ, cof, cor, creaseX, creaseY,
                       creaseZ, deviation, dropAngle, hitStumps, impactX, impactY, impactZ))
  }

  function ReadReleaseFacts(q: Parts): (r: Result<ReleaseFacts, Error>)
    ensures r.Success? <==>
      && Get(q.trajectory, "reactionTime(to crease)").Success?
      && Get(q.trajectory, "reactionTime(to interception)").Success?
      && Get(q.trajectory, "pbr").Success?
      && Get(q.trajectory, "releaseSpeed").Success?
      && Get(q.release, "x").Success?
      && Get(q.release, "y").Success?
      && Get(q.release, "z").Success?
      && Get(q.trajectory, "swing").Success?
      && Get(q.trajectory, "initialAngle").Success?
      && Get(q.stump, "x").Success?
      && Get(q.stump, "y").Success?
      && Get(q.stump, "z").Success?
    ensures r.Success? ==>
      && Get(q.trajectory, "reactionTime(to crease)") == Success(r.value.reactToCrease)
      && Get(q.trajectory, "reactionTime(to interception)") == Success(r.value.reactToIntercept)
      && Get(q.trajectory, "pbr") == Success(r.value.pbr)
      && Get(q.trajectory, "releaseSpeed") == Success(r.value.releaseSpeed)
      && Get(q.release, "x") == Success(r.value.releaseX)
      && Get(q.release, "y") == Success(r.value.releaseY)
      && Get(q.release, "z") == Success(r.value.releaseZ)
      && Get(q.trajectory, "swing") == Success(r.value.swing)
      && Get(q.trajectory, "initialAngle") == Success(r.value.initialAngle)
      && Get(q.stump, "x") == Success(r.value.stumpX)
      && Get(q.stump, "y") == Success(r.value.stumpY)
      && Get(q.stump, "z") == Success(r.value.stumpZ)
  {
    var reactToCrease :- Get(q.trajectory, "reactionTime(to crease)");
    var reactToIntercept :- Get(q.trajectory, "reactionTime(to interception)");
    var pbr :- Get(q.trajectory, "pbr");
    var releaseSpeed :- Get(q.trajectory, "releaseSpeed");
    var releaseX :- Get(q.release, "x");
    var releaseY :- Get(q.release, "y");
    var releaseZ :- Get(q.release, "z");
    var swing :- Get(q.trajectory, "swing");
    var initialAngle :- Get(q.trajectory, "initialAngle");
    var stumpX :- Get(q.stump, "x");
    var stumpY :- Get(q.stump, "y");
    var stumpZ :- Get(q.stump, "z");
    Success(ReleaseFacts(reactToCrease, reactToIntercept, pbr, releaseSpeed, releaseX,
                         releaseY, releaseZ, swing, initialAngle, stumpX, stumpY, stumpZ))
  }

  /** The row literal of lines 125-130: the fields in column order. */
  function AssembleRow(d: DeliveryFacts, s: ScoreFacts, p: PitchFacts, r: ReleaseFacts): Row {
    TeamCells(d) + PlayerCells(d) + BowlerCells(d) + NumberingCells(d) + ScoreCells(s) + WicketShotCells(s) +
    BounceCells(p) + CreaseCells(p) + ImpactCells(p) + ReactionCells(r) + ReleaseCells(r)
  }

  function TeamCells(d: DeliveryFacts): Row {
    [d.country, d.format, d.battingTeam, d.bowlingTeam, d.homeForBat, d.homeForBowl]
  }

  function PlayerCells(d: DeliveryFacts): Row {
    [d.batter, d.batId, JStr(d.batHand), d.nonStriker, JStr(d.nonStrikerHand)]
  }

  function BowlerCells(d: DeliveryFacts): Row {
    [d.bowler, d.bowlerId, d.innings]
  }

  function NumberingCells(d: DeliveryFacts): Row {
    [JStr(d.ballId), d.overNum, d.ballNum, d.ballType]
  }

  function ScoreCells(s: ScoreFacts): Row {
    [s.runs, s.boundary, s.extras, s.extrasType]
  }

  function WicketShotCells(s: ScoreFacts): Row {
    [s.isWicket, s.wicketType, s.wicketsTaken, s.shotAttack, s.shotPlayed, s.shotTypeAdditional]
  }

  function BounceCells(p: PitchFacts): Row {
    [p.bounceAngle, p.bounceX, p.bounceY, p.bounceZ, p.cof, p.cor]
  }

  function CreaseCells(p: PitchFacts): Row {
    [p.creaseX, p.creaseY, p.creaseZ, p.deviation, p.dropAngle, p.hitStumps]
  }

  function ImpactCells(p: PitchFacts): Row {
    [p.impactX, p.impactY, p.impactZ]
  }

  function ReactionCells(r: ReleaseFacts): Row {
    [r.reactToCrease, r.reactToIntercept, r.pbr, r.releaseSpeed]
  }

  function ReleaseCells(r: ReleaseFacts): Row {
    [r.releaseX, r.releaseY, r.releaseZ, r.initialAngle, r.swing, r.stumpX, r.stumpY, r.stumpZ]
  }

  /** The field reads of lines 58-122, in the script's order, then the row of lines 125-130. */
  function ProjectRow(q: Parts): (r: Result<Row, Error>)
    ensures r.Success? ==> |r.value| == |Columns|
  {
    var d :- ReadDeliveryFacts(q);
    var s :- ReadScoreFacts(q);
    var p :- ReadPitchFacts(q);
    var r :- ReadReleaseFacts(q);
    Success(AssembleRow(d, s, p, r))
  }

  /** The whole projection of one delivery document; nothing is written unless it succeeds. */
  function ExtractRow(data: Value): (r: Result<Row, Error>)
    ensures r.Success? ==> |r.value| == |Columns|
  {
    var q :- SubObjects(data);
    ProjectRow(q)
  }

  /** A column's value read from the sub-objects once they are bound. */
  function ColumnOf(q: Parts, src: Source): Result<Value, Error> {
    match src
    case Field(p, key) => Get(q.At(p), key)
    case Handedness(p, key) =>
      var flag :- Get(q.At(p), key);
      Success(JStr(Hand(flag)))
    case BallNumbering =>
      var over :- Get(q.deliveryNumber, "over");
      var ball :- Get(q.deliveryNumber, "ball");
      var id :- BallId(over, ball);
      Success(JStr(id))
  }

  /** `q.At(p)` is found under its key in the object enclosing it. */
  predicate Linked(q: Parts, p: Part) {
    p == Document || Get(q.At(Location(p).0), Location(p).1) == Success(q.At(p))
  }

  /** `q` holds the sub-objects of `doc`, each found where the location table places it. */
  predicate Consistent(doc: Value, q: Parts) {
    && q.document == doc
    && Linked(q, MatchData) && Linked(q, BattingTeam) && Linked(q, BowlingTeam)
    && Linked(q, Batter) && Linked(q, NonStriker) && Linked(q, Bowler)
    && Linked(q, DeliveryInfo) && Linked(q, Trajectory) && Linked(q, Bounce)
    && Linked(q, Stump) && Linked(q, Crease) && Linked(q, Impact) && Linked(q, Release)
    && Linked(q, ShotInfo) && Linked(q, ScoreInfo) && Linked(q, WicketInfo)
    && Linked(q, DeliveryNumber)
  }

  /** The match object, the teams and the players. */
  lemma SubObjectsLinkedTeams(doc: Value, p: Part)
    requires p in {MatchData, BattingTeam, BowlingTeam, Batter, NonStriker, Bowler}
    ensures SubObjects(doc).Success? ==> Linked(SubObjects(doc).value, p)
  {
  }

  /** The delivery object and the positions along the trajectory. */
  lemma SubObjectsLinkedTrajectory(doc: Value, p: Part)
    requires p in {DeliveryInfo, Trajectory, Bounce, Stump, Crease, Impact, Release}
    ensures SubObjects(doc).Success? ==> Linked(SubObjects(doc).value, p)
  {
  }

  /** The shot, scoring, wicket and numbering objects. */
  lemma SubObjectsLinkedOutcome(doc: Value, p: Part)
    requires p in {ShotInfo, ScoreInfo, WicketInfo, DeliveryNumber}
    ensures SubObjects(doc).Success? ==> Linked(SubObjects(doc).value, p)
  {
  }

  /** The script binds every sub-object to the value found under its key in its parent. */
  lemma SubObjectsConsistent(doc: Value)
    ensures SubObjects(doc).Success? ==> Consistent(doc, SubObjects(doc).value)
  {
    SubObjectsLinkedTeams(doc, MatchData);
    SubObjectsLinkedTeams(doc, BattingTeam);
    SubObjectsLinkedTeams(doc, BowlingTeam);
    SubObjectsLinkedTeams(doc, Batter);
    SubObjectsLinkedTeams(doc, NonStriker);
    SubObjectsLinkedTeams(doc, Bowler);
    SubObjectsLinkedTrajectory(doc, DeliveryInfo);
    SubObjectsLinkedTrajectory(doc, Trajectory);
    SubObjectsLinkedTrajectory(doc, Bounce);
    SubObjectsLinkedTrajectory(doc, Stump);
    SubObjectsLinkedTrajectory(doc, Crease);
    SubObjectsLinkedTrajectory(doc, Impact);
    SubObjectsLinkedTrajectory(doc, Release);
    SubObjectsLinkedOutcome(doc, ShotInfo);
    SubObjectsLinkedOutcome(doc, ScoreInfo);
    SubObjectsLinkedOutcome(doc, WicketInfo);
    SubObjectsLinkedOutcome(doc, DeliveryNumber);
  }

  lemma ConsistentAllLinked(doc: Value, q: Parts)
    requires Consistent(doc, q)
    ensures forall p :: Linked(q, p)
  {
  }

  /** Following the location table from the root reaches the sub-objects `q` binds. */
  lemma {:induction false} ResolveLinked(doc: Value, q: Parts, p: Part)
    requires q.document == doc
    requires forall r :: Linked(q, r)
    ensures Resolve(doc, p) == Success(q.At(p))
    decreases Depth(p)
  {
    if p != Document {
      var (outer, key) := Location(p);
      ResolveLinked(doc, q, outer);
      assert Linked(q, p);
    }
  }

  lemma ResolveParts(doc: Value, q: Parts, p: Part)
    requires SubObjects(doc) == Success(q)
    ensures Resolve(doc, p) == Success(q.At(p))
  {
    SubObjectsConsistent(doc);
    ConsistentAllLinked(doc, q);
    ResolveLinked(doc, q, p);
  }

  lemma ColumnFromParts(doc: Value, q: Parts, src: Source)
    requires SubObjects(doc) == Success(q)
    ensures ColumnValue(doc, src) == ColumnOf(q, src)
  {
    match src
    case Field(p, _) => ResolveParts(doc, q, p);
    case Handedness(p, _) => ResolveParts(doc, q, p);
    case BallNumbering => ResolveParts(doc, q, DeliveryNumber);
  }

  /** Each column of `cols` reads, from `q`, the cell at the same position of `row`. */
  predicate Agrees(q: Parts, cols: seq<Column>, row: Row) {
    && |cols| == |row|
    && forall i :: 0 <= i < |cols| ==> ColumnOf(q, cols[i].source) == Success(row[i])
  }

  /** Every column of `cols` can be read from `q`. */
  predicate AllRead(q: Parts, cols: seq<Column>) {
    forall i :: 0 <= i < |cols| ==> ColumnOf(q, cols[i].source).Success?
  }

  lemma AgreesConcat(q: Parts, c1: seq<Column>, r1: Row, c2: seq<Column>, r2: Row)
    requires Agrees(q, c1, r1) && Agrees(q, c2, r2)
    ensures Agrees(q, c1 + c2, r1 + r2)
  {
    forall i | 0 <= i < |c1 + c2|
      ensures ColumnOf(q, (c1 + c2)[i].source) == Success((r1 + r2)[i])
    {
      if i >= |c1| {
        assert (c1 + c2)[i] == c2[i - |c1|];
      }
    }
  }

  lemma TeamAgrees(q: Parts, d: DeliveryFacts)
    requires ReadDeliveryFacts(q) == Success(d)
    ensures Agrees(q, TeamColumns, TeamCells(d))
  {
  }

  lemma PlayerAgrees(q: Parts, d: DeliveryFacts)
    requires ReadDeliveryFacts(q) == Success(d)
    ensures Agrees(q, PlayerColumns, PlayerCells(d))
  {
  }

  lemma NumberingAgrees(q: Parts, d: DeliveryFacts)
    requires ReadDeliveryFacts(q) == Success(d)
    ensures Agrees(q, NumberingColumns, NumberingCells(d))
  {
  }

  lemma BowlerAgrees(q: Parts, d: DeliveryFacts)
    requires ReadDeliveryFacts(q) == Success(d)
    ensures Agrees(q, BowlerColumns, BowlerCells(d))
  {
  }

  lemma ScoreAgrees(q: Parts, s: ScoreFacts)
    requires ReadScoreFacts(q) == Success(s)
    ensures Agrees(q, ScoreColumns, ScoreCells(s))
  {
  }

  lemma WicketShotAgrees(q: Parts, s: ScoreFacts)
    requires ReadScoreFacts(q) == Success(s)
    ensures Agrees(q, WicketShotColumns, WicketShotCells(s))
  {
  }

  lemma BounceAgrees(q: Parts, p: PitchFacts)
    requires ReadPitchFacts(q) == Success(p)
    ensures Agrees(q, BounceColumns, BounceCells(p))
  {
  }

  lemma CreaseAgrees(q: Parts, p: PitchFacts)
    requires ReadPitchFacts(q) == Success(p)
    ensures Agrees(q, CreaseColumns, CreaseCells(p))
  {
  }

  lemma ImpactAgrees(q: Parts, p: PitchFacts)
    requires ReadPitchFacts(q) == Success(p)
    ensures Agrees(q, ImpactColumns, ImpactCells(p))
  {
  }

  lemma ReactionAgrees(q: Parts, r: ReleaseFacts)
    requires ReadReleaseFacts(q) == Success(r)
    ensures Agrees(q, ReactionColumns, ReactionCells(r))
  {
  }

  lemma ReleaseAgrees(q: Parts, r: ReleaseFacts)
    requires ReadReleaseFacts(q) == Success(r)
    ensures Agrees(q, ReleaseColumns, ReleaseCells(r))
  {
  }

  lemma TeamReadable(q: Parts)
    requires AllRead(q, TeamColumns)
    ensures
      && Get(q.document, "country").Success?
      && Get(q.document, "format").Success?
      && Get(q.battingTeam, "name").Success?
      && Get(q.bowlingTeam, "name").Success?
      && Get(q.battingTeam, "home").Success?
      && Get(q.bowlingTeam, "home").Success?
  {
    assert ColumnOf(q, TeamColumns[0].source).Success?;
    assert ColumnOf(q, TeamColumns[1].source).Success?;
    assert ColumnOf(q, TeamColumns[2].source).Success?;
    assert ColumnOf(q, TeamColumns[3].source).Success?;
    assert ColumnOf(q, TeamColumns[4].source).Success?;
    assert ColumnOf(q, TeamColumns[5].source).Success?;
  }

  lemma PlayerReadable(q: Parts)
    requires AllRead(q, PlayerColumns)
    ensures
      && Get(q.batter, "name").Success?
      && Get(q.batter, "id").Success?
      && Get(q.batter, "isRightHanded").Success?
      && Get(q.nonStriker, "name").Success?
      && Get(q.nonStriker, "isRightHanded").Success?
  {
    assert ColumnOf(q, PlayerColumns[0].source).Success?;
    assert ColumnOf(q, PlayerColumns[1].source).Success?;
    assert ColumnOf(q, PlayerColumns[2].source).Success?;
    assert ColumnOf(q, PlayerColumns[3].source).Success?;
    assert ColumnOf(q, PlayerColumns[4].source).Success?;
  }

  lemma BowlerReadable(q: Parts)
    requires AllRead(q, BowlerColumns)
    ensures
      && Get(q.bowler, "name").Success?
      && Get(q.bowler, "id").Success?
      && Get(q.deliveryNumber, "innings").Success?
  {
    assert ColumnOf(q, BowlerColumns[0].source).Success?;
    assert ColumnOf(q, BowlerColumns[1].source).Success?;
    assert ColumnOf(q, BowlerColumns[2].source).Success?;
  }

  lemma NumberingReadable(q: Parts)
    requires AllRead(q, NumberingColumns)
    ensures
      && Get(q.deliveryNumber, "over").Success?
      && Get(q.deliveryNumber, "ball").Success?
      && BallId(Get(q.deliveryNumber, "over").value, Get(q.deliveryNumber, "ball").value).Success?
      && Get(q.deliveryInfo, "deliveryType").Success?
  {
    assert ColumnOf(q, NumberingColumns[0].source).Success?;
    assert ColumnOf(q, NumberingColumns[1].source).Success?;
    assert ColumnOf(q, NumberingColumns[2].source).Success?;
    assert ColumnOf(q, NumberingColumns[3].source).Success?;
  }

  lemma ScoreReadable(q: Parts)
    requires AllRead(q, ScoreColumns)
    ensures
      && Get(q.scoreInfo, "score").Success?
      && Get(q.scoreInfo, "boundary").Success?
      && Get(q.scoreInfo, "extrasScore").Success?
      && Get(q.scoreInfo, "extrasType").Success?
  {
    assert ColumnOf(q, ScoreColumns[0].source).Success?;
    assert ColumnOf(q, ScoreColumns[1].source).Success?;
    assert ColumnOf(q, ScoreColumns[2].source).Success?;
    assert ColumnOf(q, ScoreColumns[3].source).Success?;
  }

  lemma WicketShotReadable(q: Parts)
    requires AllRead(q, WicketShotColumns)
    ensures
      && Get(q.wicketInfo, "isWicket").Success?
      && Get(q.wicketInfo, "wicketType").Success?
      && Get(q.wicketInfo, "wicketsTaken").Success?
      && Get(q.shotInfo, "shotAttacked").Success?
      && Get(q.shotInfo, "shotPlayed").Success?
      && Get(q.shotInfo, "shotTypeAdditional").Success?
  {
    assert ColumnOf(q, WicketShotColumns[0].source).Success?;
    assert ColumnOf(q, WicketShotColumns[1].source).Success?;
    assert ColumnOf(q, WicketShotColumns[2].source).Success?;
    assert ColumnOf(q, WicketShotColumns[3].source).Success?;
    assert ColumnOf(q, WicketShotColumns[4].source).Success?;
    assert ColumnOf(q, WicketShotColumns[5].source).Success?;
  }

  lemma BounceReadable(q: Parts)
    requires AllRead(q, BounceColumns)
    ensures
      && Get(q.trajectory, "bounceAngle").Success?
      && Get(q.bounce, "x").Success?
      && Get(q.bounce, "y").Success?
      && Get(q.bounce, "z").Success?
      && Get(q.trajectory, "cof").Success?
      && Get(q.trajectory, "cor").Success?
  {
    assert ColumnOf(q, BounceColumns[0].source).Success?;
    assert ColumnOf(q, BounceColumns[1].source).Success?;
    assert ColumnOf(q, BounceColumns[2].source).Success?;
    assert ColumnOf(q, BounceColumns[3].source).Success?;
    assert ColumnOf(q, BounceColumns[4].source).Success?;
    assert ColumnOf(q, BounceColumns[5].source).Success?;
  }

  lemma CreaseReadable(q: Parts)
    requires AllRead(q, CreaseColumns)
    ensures
      && Get(q.crease, "x").Success?
      && Get(q.crease, "y").Success?
      && Get(q.crease, "z").Success?
      && Get(q.trajectory, "deviation").Success?
      && Get(q.trajectory, "dropAngle").Success?
      && Get(q.trajectory, "hitStumps").Success?
  {
    assert ColumnOf(q, CreaseColumns[0].source).Success?;
    assert ColumnOf(q, CreaseColumns[1].source).Success?;
    assert ColumnOf(q, CreaseColumns[2].source).Success?;
    assert ColumnOf(q, CreaseColumns[3].source).Success?;
    assert ColumnOf(q, CreaseColumns[4].source).Success?;
    assert ColumnOf(q, CreaseColumns[5].source).Success?;
  }

  lemma ImpactReadable(q: Parts)
    requires AllRead(q, ImpactColumns)
    ensures
      && Get(q.impact, "x").Success?
      && Get(q.impact, "y").Success?
      && Get(q.impact, "z").Success?
  {
    assert ColumnOf(q, ImpactColumns[0].source).Success?;
    assert ColumnOf(q, ImpactColumns[1].source).Success?;
    assert ColumnOf(q, ImpactColumns[2].source).Success?;
  }

  lemma ReactionReadable(q: Parts)
    requires AllRead(q, ReactionColumns)
    ensures
      && Get(q.trajectory, "reactionTime(to crease)").Success?
      && Get(q.trajectory, "reactionTime(to interception)").Success?
      && Get(q.trajectory, "pbr").Success?
      && Get(q.trajectory, "releaseSpeed").Success?
  {
    assert ColumnOf(q, ReactionColumns[0].source).Success?;
    assert ColumnOf(q, ReactionColumns[1].source).Success?;
    assert ColumnOf(q, ReactionColumns[2].source).Success?;
    assert ColumnOf(q, ReactionColumns[3].source).Success?;
  }

  lemma ReleaseReadable(q: Parts)
    requires AllRead(q, ReleaseColumns)
    ensures
      && Get(q.release, "x").Success?
      && Get(q.release, "y").Success?
      && Get(q.release, "z").Success?
      && Get(q.trajectory, "initialAngle").Success?
      && Get(q.trajectory, "swing").Success?
      && Get(q.stump, "x").Success?
      && Get(q.stump, "y").Success?
      && Get(q.stump, "z").Success?
  {
    assert ColumnOf(q, ReleaseColumns[0].source).Success?;
    assert ColumnOf(q, ReleaseColumns[1].source).Success?;
    assert ColumnOf(q, ReleaseColumns[2].source).Success?;
    assert ColumnOf(q, ReleaseColumns[3].source).Success?;
    assert ColumnOf(q, ReleaseColumns[4].source).Success?;
    assert ColumnOf(q, ReleaseColumns[5].source).Success?;
    assert ColumnOf(q, ReleaseColumns[6].source).Success?;
    assert ColumnOf(q, ReleaseColumns[7].source).Success?;
  }

  lemma AllReadSplit(q: Parts, c1: seq<Column>, c2: seq<Column>)
    requires AllRead(q, c1 + c2)
    ensures AllRead(q, c1) && AllRead(q, c2)
  {
    forall i | 0 <= i < |c1|
      ensures ColumnOf(q, c1[i].source).Success?
    {
      assert (c1 + c2)[i] == c1[i];
    }
    forall i | 0 <= i < |c2|
      ensures ColumnOf(q, c2[i].source).Success?
    {
      assert (c1 + c2)[|c1| + i] == c2[i];
    }
  }

  lemma AgreesAllRead(q: Parts, cols: seq<Column>, row: Row)
    requires Agrees(q, cols, row)
    ensures AllRead(q, cols)
  {
  }

  /** The team, player, bowler and numbering reads succeed exactly when every column of those
      four groups of the table can be read, and then hold those columns' values in table order. */
  lemma DeliveryFactsFollowColumns(q: Parts)
    ensures ReadDeliveryFacts(q).Success? <==>
      && AllRead(q, TeamColumns) && AllRead(q, PlayerColumns)
      && AllRead(q, BowlerColumns) && AllRead(q, NumberingColumns)
    ensures ReadDeliveryFacts(q).Success? ==>
      var d := ReadDeliveryFacts(q).value;
      && Agrees(q, TeamColumns, TeamCells(d)) && Agrees(q, PlayerColumns, PlayerCells(d))
      && Agrees(q, BowlerColumns, BowlerCells(d)) && Agrees(q, NumberingColumns, NumberingCells(d))
  {
    if ReadDeliveryFacts(q).Success? {
      var d := ReadDeliveryFacts(q).value;
      TeamAgrees(q, d);
      PlayerAgrees(q, d);
      BowlerAgrees(q, d);
      NumberingAgrees(q, d);
      AgreesAllRead(q, TeamColumns, TeamCells(d));
      AgreesAllRead(q, PlayerColumns, PlayerCells(d));
      AgreesAllRead(q, BowlerColumns, BowlerCells(d));
      AgreesAllRead(q, NumberingColumns, NumberingCells(d));
    }
    if AllRead(q, TeamColumns) && AllRead(q, PlayerColumns) && AllRead(q, BowlerColumns) && AllRead(q, NumberingColumns) {
      TeamReadable(q);
      PlayerReadable(q);
      BowlerReadable(q);
      NumberingReadable(q);
    }
  }

  /** The score, wicket and shot reads succeed exactly when every column of those groups can be
      read, and then hold those columns' values in table order. */
  lemma ScoreFactsFollowColumns(q: Parts)
    ensures ReadScoreFacts(q).Success? <==> AllRead(q, ScoreColumns) && AllRead(q, WicketShotColumns)
    ensures ReadScoreFacts(q).Success? ==>
      var s := ReadScoreFacts(q).value;
      Agrees(q, ScoreColumns, ScoreCells(s)) && Agrees(q, WicketShotColumns, WicketShotCells(s))
  {
    if ReadScoreFacts(q).Success? {
      var s := ReadScoreFacts(q).value;
      ScoreAgrees(q, s);
      WicketShotAgrees(q, s);
      AgreesAllRead(q, ScoreColumns, ScoreCells(s));
      AgreesAllRead(q, WicketShotColumns, WicketShotCells(s));
    }
    if AllRead(q, ScoreColumns) && AllRead(q, WicketShotColumns) {
      ScoreReadable(q);
      WicketShotReadable(q);
    }
  }

  /** The bounce, crease and impact reads succeed exactly when every column of those groups can
      be read, and then hold those columns' values in table order. */
  lemma PitchFactsFollowColumns(q: Parts)
    ensures ReadPitchFacts(q).Success? <==>
      AllRead(q, BounceColumns) && AllRead(q, CreaseColumns) && AllRead(q, ImpactColumns)
    ensures ReadPitchFacts(q).Success? ==>
      var p := ReadPitchFacts(q).value;
      && Agrees(q, BounceColumns, BounceCells(p)) && Agrees(q, CreaseColumns, CreaseCells(p))
      && Agrees(q, ImpactColumns, ImpactCells(p))
  {
    if ReadPitchFacts(q).Success? {
      var p := ReadPitchFacts(q).value;
      BounceAgrees(q, p);
      CreaseAgrees(q, p);
      ImpactAgrees(q, p);
      AgreesAllRead(q, BounceColumns, BounceCells(p));
      AgreesAllRead(q, CreaseColumns, CreaseCells(p));
      AgreesAllRead(q, ImpactColumns, ImpactCells(p));
    }
    if AllRead(q, BounceColumns) && AllRead(q, CreaseColumns) && AllRead(q, ImpactColumns) {
      BounceReadable(q);
      CreaseReadable(q);
      ImpactReadable(q);
    }
  }

  /** The reaction-time, release and stump reads succeed exactly when every column of those
      groups can be read, and then hold those columns' values in table order. */
  lemma ReleaseFactsFollowColumns(q: Parts)
    ensures ReadReleaseFacts(q).Success? <==> AllRead(q, ReactionColumns) && AllRead(q, ReleaseColumns)
    ensures ReadReleaseFacts(q).Success? ==>
      var r := ReadReleaseFacts(q).value;
      Agrees(q, ReactionColumns, ReactionCells(r)) && Agrees(q, ReleaseColumns, ReleaseCells(r))
  {
    if ReadReleaseFacts(q).Success? {
      var r := ReadReleaseFacts(q).value;
      ReactionAgrees(q, r);
      ReleaseAgrees(q, r);
      AgreesAllRead(q, ReactionColumns, ReactionCells(r));
      AgreesAllRead(q, ReleaseColumns, ReleaseCells(r));
    }
    if AllRead(q, ReactionColumns) && AllRead(q, ReleaseColumns) {
      ReactionReadable(q);
      ReleaseReadable(q);
    }
  }

  /** Once the sub-objects are bound, the script's reads produce exactly the column table's
      values, and they fail only when some column of the table cannot be read. */
  lemma ProjectRowFollowsSchema(q: Parts)
    ensures ProjectRow(q).Success? <==> AllRead(q, Schema)
    ensures ProjectRow(q).Success? ==> Agrees(q, Schema, ProjectRow(q).value)
  {
    if ProjectRow(q).Success? {
      var d := ReadDeliveryFacts(q).value;
      var s := ReadScoreFacts(q).value;
      var p := ReadPitchFacts(q).value;
      var r := ReadReleaseFacts(q).value;
      TeamAgrees(q, d);
      PlayerAgrees(q, d);
      AgreesConcat(q, TeamColumns, TeamCells(d), PlayerColumns, PlayerCells(d));
      var c := TeamColumns + PlayerColumns;
      var row := TeamCells(d) + PlayerCells(d);
      BowlerAgrees(q, d);
      AgreesConcat(q, c, row, BowlerColumns, BowlerCells(d));
      c, row := c + BowlerColumns, row + BowlerCells(d);
      NumberingAgrees(q, d);
      AgreesConcat(q, c, row, NumberingColumns, NumberingCells(d));
      c, row := c + NumberingColumns, row + NumberingCells(d);
      ScoreAgrees(q, s);
      AgreesConcat(q, c, row, ScoreColumns, ScoreCells(s));
      c, row := c + ScoreColumns, row + ScoreCells(s);
      WicketShotAgrees(q, s);
      AgreesConcat(q, c, row, WicketShotColumns, WicketShotCells(s));
      c, row := c + WicketShotColumns, row + WicketShotCells(s);
      BounceAgrees(q, p);
      AgreesConcat(q, c, row, BounceColumns, BounceCells(p));
      c, row := c + BounceColumns, row + BounceCells(p);
      CreaseAgrees(q, p);
      AgreesConcat(q, c, row, CreaseColumns, CreaseCells(p));
      c, row := c + CreaseColumns, row + CreaseCells(p);
      ImpactAgrees(q, p);
      AgreesConcat(q, c, row, ImpactColumns, ImpactCells(p));
      c, row := c + ImpactColumns, row + ImpactCells(p);
      ReactionAgrees(q, r);
      AgreesConcat(q, c, row, ReactionColumns, ReactionCells(r));
      c, row := c + ReactionColumns, row + ReactionCells(r);
      ReleaseAgrees(q, r);
      AgreesConcat(q, c, row, ReleaseColumns, ReleaseCells(r));
      c, row := c + ReleaseColumns, row + ReleaseCells(r);
      assert c == Schema;
      assert row == ProjectRow(q).value;
    }
    if AllRead(q, Schema) {
      AllReadSplit(q, TeamColumns + PlayerColumns + BowlerColumns + NumberingColumns +
        ScoreColumns + WicketShotColumns + BounceColumns + CreaseColumns + ImpactColumns + ReactionColumns, ReleaseColumns);
      AllReadSplit(q, TeamColumns + PlayerColumns + BowlerColumns + NumberingColumns +
        ScoreColumns + WicketShotColumns + BounceColumns + CreaseColumns + ImpactColumns, ReactionColumns);
      AllReadSplit(q, TeamColumns + PlayerColumns + BowlerColumns + NumberingColumns +
        ScoreColumns + WicketShotColumns + BounceColumns + CreaseColumns, ImpactColumns);
      AllReadSplit(q, TeamColumns + PlayerColumns + BowlerColumns + NumberingColumns +
        ScoreColumns + WicketShotColumns + BounceColumns, CreaseColumns);
      AllReadSplit(q, TeamColumns + PlayerColumns + BowlerColumns + NumberingColumns +
        ScoreColumns + WicketShotColumns, BounceColumns);
      AllReadSplit(q, TeamColumns + PlayerColumns + BowlerColumns + NumberingColumns +
        ScoreColumns, WicketShotColumns);
      AllReadSplit(q, TeamColumns + PlayerColumns + BowlerColumns +
        NumberingColumns, ScoreColumns);
      AllReadSplit(q, TeamColumns + PlayerColumns + BowlerColumns, NumberingColumns);
      AllReadSplit(q, TeamColumns + PlayerColumns, BowlerColumns);
      AllReadSplit(q, TeamColumns, PlayerColumns);
      TeamReadable(q);
      PlayerReadable(q);
      BowlerReadable(q);
      NumberingReadable(q);
      ScoreReadable(q);
      WicketShotReadable(q);
      BounceReadable(q);
      CreaseReadable(q);
      ImpactReadable(q);
      ReactionReadable(q);
      ReleaseReadable(q);
    }
  }

  /** Every column of `cols` can be read from the document. */
  predicate Readable(doc: Value, cols: seq<Column>) {
    forall i :: 0 <= i < |cols| ==> ColumnValue(doc, cols[i].source).Success?
  }

  lemma ReadableSplit(doc: Value, c1: seq<Column>, c2: seq<Column>)
    requires Readable(doc, c1 + c2)
    ensures Readable(doc, c1) && Readable(doc, c2)
  {
    forall i | 0 <= i < |c1|
      ensures ColumnValue(doc, c1[i].source).Success?
    {
      assert (c1 + c2)[i] == c1[i];
    }
    forall i | 0 <= i < |c2|
      ensures ColumnValue(doc, c2[i].source).Success?
    {
      assert (c1 + c2)[|c1| + i] == c2[i];
    }
  }

  /** `q` holds, for every part, what `Resolve` finds in `doc`. */
  predicate Resolved(doc: Value, q: Parts) {
    forall p :: Resolve(doc, p) == Success(q.At(p))
  }

  lemma ResolvedLinked(doc: Value, q: Parts, p: Part)
    requires Resolved(doc, q)
    ensures Linked(q, p)
  {
    if p != Document {
      assert Resolve(doc, Location(p).0) == Success(q.At(Location(p).0));
    }
  }

  lemma ResolvedConsistent(doc: Value, q: Parts)
    requires Resolved(doc, q)
    ensures Consistent(doc, q)
  {
    assert Resolve(doc, Document) == Success(q.At(Document));
    forall p | p != Document
      ensures Linked(q, p)
    {
      ResolvedLinked(doc, q, p);
    }
  }

  /** The script's lookups succeed whenever the parts sit where the location table places them,
      and they bind exactly those parts. */
  lemma ConsistentSubObjects(doc: Value, q: Parts)
    requires Consistent(doc, q)
    ensures SubObjects(doc) == Success(q)
  {
  }

  lemma PartsResolved(doc: Value, q: Parts)
    requires forall p :: Resolve(doc, p).Success?
    requires q == Parts(
      doc, Resolve(doc, MatchData).value, Resolve(doc, BattingTeam).value,
      Resolve(doc, BowlingTeam).value, Resolve(doc, Batter).value,
      Resolve(doc, NonStriker).value, Resolve(doc, Bowler).value,
      Resolve(doc, DeliveryInfo).value, Resolve(doc, Trajectory).value,
      Resolve(doc, Bounce).value, Resolve(doc, Stump).value, Resolve(doc, Crease).value,
      Resolve(doc, Impact).value, Resolve(doc, Release).value, Resolve(doc, ShotInfo).value,
      Resolve(doc, ScoreInfo).value, Resolve(doc, WicketInfo).value,
      Resolve(doc, DeliveryNumber).value)
    ensures Resolved(doc, q)
  {
    forall p
      ensures Resolve(doc, p) == Success(q.At(p))
    {
      assert Resolve(doc, p).Success?;
    }
  }

  /** The sub-object lookups succeed as soon as every part can be found in the document. */
  lemma SubObjectsComplete(doc: Value)
    requires forall p :: Resolve(doc, p).Success?
    ensures SubObjects(doc).Success?
  {
    var q := Parts(
      doc, Resolve(doc, MatchData).value, Resolve(doc, BattingTeam).value,
      Resolve(doc, BowlingTeam).value, Resolve(doc, Batter).value,
      Resolve(doc, NonStriker).value, Resolve(doc, Bowler).value,
      Resolve(doc, DeliveryInfo).value, Resolve(doc, Trajectory).value,
      Resolve(doc, Bounce).value, Resolve(doc, Stump).value, Resolve(doc, Crease).value,
      Resolve(doc, Impact).value, Resolve(doc, Release).value, Resolve(doc, ShotInfo).value,
      Resolve(doc, ScoreInfo).value, Resolve(doc, WicketInfo).value,
      Resolve(doc, DeliveryNumber).value);
    PartsResolved(doc, q);
    ResolvedConsistent(doc, q);
    ConsistentSubObjects(doc, q);
  }

  /** A readable schema has readable chunks: the five trajectory chunks. */
  lemma ReadableLateChunks(doc: Value)
    requires Readable(doc, Schema)
    ensures Readable(doc, TeamColumns + PlayerColumns + BowlerColumns + NumberingColumns +
                          ScoreColumns + WicketShotColumns)
    ensures Readable(doc, BounceColumns) && Readable(doc, CreaseColumns)
    ensures Readable(doc, ImpactColumns) && Readable(doc, ReactionColumns)
    ensures Readable(doc, ReleaseColumns)
  {
    ReadableSplit(doc, TeamColumns + PlayerColumns + BowlerColumns + NumberingColumns +
      ScoreColumns + WicketShotColumns + BounceColumns + CreaseColumns + ImpactColumns + ReactionColumns, ReleaseColumns);
    ReadableSplit(doc, TeamColumns + PlayerColumns + BowlerColumns + NumberingColumns +
      ScoreColumns + WicketShotColumns + BounceColumns + CreaseColumns + ImpactColumns, ReactionColumns);
    ReadableSplit(doc, TeamColumns + PlayerColumns + BowlerColumns + NumberingColumns +
      ScoreColumns + WicketShotColumns + BounceColumns + CreaseColumns, ImpactColumns);
    ReadableSplit(doc, TeamColumns + PlayerColumns + BowlerColumns + NumberingColumns +
      ScoreColumns + WicketShotColumns + BounceColumns, CreaseColumns);
    ReadableSplit(doc, TeamColumns + PlayerColumns + BowlerColumns + NumberingColumns +
      ScoreColumns + WicketShotColumns, BounceColumns);
  }

  /** The six chunks read before the trajectory. */
  lemma ReadableEarlyChunks(doc: Value)
    requires Readable(doc, TeamColumns + PlayerColumns + BowlerColumns + NumberingColumns +
                           ScoreColumns + WicketShotColumns)
    ensures Readable(doc, TeamColumns) && Readable(doc, PlayerColumns)
    ensures Readable(doc, BowlerColumns) && Readable(doc, NumberingColumns)
    ensures Readable(doc, ScoreColumns) && Readable(doc, WicketShotColumns)
  {
    ReadableSplit(doc, TeamColumns + PlayerColumns + BowlerColumns + NumberingColumns +
      ScoreColumns, WicketShotColumns);
    ReadableSplit(doc, TeamColumns + PlayerColumns + BowlerColumns +
      NumberingColumns, ScoreColumns);
    ReadableSplit(doc, TeamColumns + PlayerColumns + BowlerColumns, NumberingColumns);
    ReadableSplit(doc, TeamColumns + PlayerColumns, BowlerColumns);
    ReadableSplit(doc, TeamColumns, PlayerColumns);
  }

  /** Parts on the team and player side are reached by some readable column. */
  lemma ReadableResolvesTeams(doc: Value, p: Part)
    requires Readable(doc, TeamColumns) && Readable(doc, PlayerColumns)
    requires Readable(doc, BowlerColumns)
    requires p in {Document, MatchData, BattingTeam, BowlingTeam, Batter, NonStriker, Bowler}
    ensures Resolve(doc, p).Success?
  {
    match p
    case Document => assert ColumnValue(doc, TeamColumns[0].source).Success?;
    case MatchData => assert ColumnValue(doc, TeamColumns[2].source).Success?;
    case BattingTeam => assert ColumnValue(doc, TeamColumns[2].source).Success?;
    case BowlingTeam => assert ColumnValue(doc, TeamColumns[3].source).Success?;
    case Batter => assert ColumnValue(doc, PlayerColumns[0].source).Success?;
    case NonStriker => assert ColumnValue(doc, PlayerColumns[3].source).Success?;
    case Bowler => assert ColumnValue(doc, BowlerColumns[0].source).Success?;
  }

  /** Parts along the trajectory are reached by some readable column. */
  lemma ReadableResolvesTrajectory(doc: Value, p: Part)
    requires Readable(doc, BounceColumns) && Readable(doc, CreaseColumns)
    requires Readable(doc, ImpactColumns) && Readable(doc, ReleaseColumns)
    requires p in {Trajectory, Bounce, Stump, Crease, Impact, Release}
    ensures Resolve(doc, p).Success?
  {
    match p
    case Trajectory => assert ColumnValue(doc, BounceColumns[0].source).Success?;
    case Bounce => assert ColumnValue(doc, BounceColumns[1].source).Success?;
    case Stump => assert ColumnValue(doc, ReleaseColumns[5].source).Success?;
    case Crease => assert ColumnValue(doc, CreaseColumns[0].source).Success?;
    case Impact => assert ColumnValue(doc, ImpactColumns[0].source).Success?;
    case Release => assert ColumnValue(doc, ReleaseColumns[0].source).Success?;
  }

  /** The delivery, shot, scoring, wicket and numbering parts are reached by some readable
      column. */
  lemma ReadableResolvesOutcome(doc: Value, p: Part)
    requires Readable(doc, BowlerColumns) && Readable(doc, NumberingColumns)
    requires Readable(doc, ScoreColumns) && Readable(doc, WicketShotColumns)
    requires p in {DeliveryInfo, ShotInfo, ScoreInfo, WicketInfo, DeliveryNumber}
    ensures Resolve(doc, p).Success?
  {
    match p
    case DeliveryInfo => assert ColumnValue(doc, NumberingColumns[3].source).Success?;
    case ShotInfo => assert ColumnValue(doc, WicketShotColumns[3].source).Success?;
    case ScoreInfo => assert ColumnValue(doc, ScoreColumns[0].source).Success?;
    case WicketInfo => assert ColumnValue(doc, WicketShotColumns[0].source).Success?;
    case DeliveryNumber => assert ColumnValue(doc, BowlerColumns[2].source).Success?;
  }

  /** Every part the script binds is reached by the path of some readable column. */
  lemma ReadableResolves(doc: Value)
    requires Readable(doc, Schema)
    ensures forall p :: Resolve(doc, p).Success?
  {
    ReadableLateChunks(doc);
    ReadableEarlyChunks(doc);
    forall p: Part
      ensures Resolve(doc, p).Success?
    {
      match p
      case Document | MatchData | BattingTeam | BowlingTeam | Batter | NonStriker | Bowler =>
        ReadableResolvesTeams(doc, p);
      case Trajectory | Bounce | Stump | Crease | Impact | Release =>
        ReadableResolvesTrajectory(doc, p);
      case DeliveryInfo | ShotInfo | ScoreInfo | WicketInfo | DeliveryNumber =>
        ReadableResolvesOutcome(doc, p);
    }
  }

  /** The script's projection of a document reads exactly the column table: it succeeds if
      and only if every column can be read, and then each cell is its column's value. */
  lemma RowFollowsSchema(doc: Value)
    ensures ExtractRow(doc).Success? <==> Readable(doc, Schema)
    ensures ExtractRow(doc).Success? ==>
      && |ExtractRow(doc).value| == |Schema|
      && forall i :: 0 <= i < |Schema| ==>
           ColumnValue(doc, Schema[i].source) == Success(ExtractRow(doc).value[i])
  {
    if ExtractRow(doc).Success? {
      var q := SubObjects(doc).value;
      ProjectRowFollowsSchema(q);
      forall i | 0 <= i < |Schema|
        ensures ColumnValue(doc, Schema[i].source) == Success(ExtractRow(doc).value[i])
      {
        ColumnFromParts(doc, q, Schema[i].source);
      }
    }
    if Readable(doc, Schema) {
      ReadableResolves(doc);
      SubObjectsComplete(doc);
      var q := SubObjects(doc).value;
      forall i | 0 <= i < |Schema|
        ensures ColumnOf(q, Schema[i].source).Success?
      {
        ColumnFromParts(doc, q, Schema[i].source);
      }
      ProjectRowFollowsSchema(q);
    }
  }

  lemma SchemaNamesHead()
    ensures |Schema| == |Columns| == 55
    ensures forall i :: 0 <= i < 14 ==> Schema[i].name == Columns[i]
  {
  }

  lemma SchemaNamesMiddle()
    ensures |Schema| == |Columns| == 55
    ensures forall i :: 14 <= i < 28 ==> Schema[i].name == Columns[i]
  {
  }

  lemma SchemaNamesLate()
    ensures |Schema| == |Columns| == 55
    ensures forall i :: 28 <= i < 41 ==> Schema[i].name == Columns[i]
  {
  }

  lemma SchemaNamesTail()
    ensures |Schema| == |Columns| == 55
    ensures forall i :: 41 <= i < 55 ==> Schema[i].name == Columns[i]
  {
  }

  /** The column table names exactly the header's columns, in the header's order. */
  lemma SchemaMatchesColumns()
    ensures |Schema| == |Columns| == 55
    ensures forall i :: 0 <= i < |Schema| ==> Schema[i].name == Columns[i]
    ensures Columns[InningsColumn] == "innings"
    ensures Schema[InningsColumn].source == Field(DeliveryNumber, "innings")
  {
    SchemaNamesHead();
    SchemaNamesMiddle();
    SchemaNamesLate();
    SchemaNamesTail();
  }
}

=== FILE: hawkeye_scraper.dfy ===
/** The HawkEye scraper of scrap_hawkeye_data.py: the request path of one delivery slot, the
    write decision for the CSV file, and the driver that walks every slot of a match.

    The HTTP exchange is a parameter: `server` maps a URL to what `requests.get(...).json()`
    produced for it. The CSV file is the sequence of its lines; a missing file and an empty
    file are the same empty sequence, since appending to either gives the same lines. */
module HawkeyeScraper {
  import opened Wrappers
  import opened Decimal
  import opened Json
  import opened DeliveryRow

  const BaseUrl: string := "https://polls.iplt20.com/widget/welcome/get_data"

  /** Everything before the slot numbers in a delivery URL. */
  const PathPrefix: string := BaseUrl + "?path=Delivery_"

  const PathSuffix: string := ".json"

  /** The URL of one delivery (scrap_hawkeye_data.py:14-16): the four numbers as Python
      formats them, separated by underscores. */
  function DeliveryUrl(inning: int, over: int, ball: int, hawkId: int): string {
    PathPrefix + SlotPath(inning, over, ball, hawkId) + PathSuffix
  }

  /** The `{inning}_{over}_{ball}_{hawk_id}` part of a delivery URL. */
  function SlotPath(inning: int, over: int, ball: int, hawkId: int): string {
    IntToString(inning) + "_" + IntToString(over) + "_" + IntToString(ball) + "_" +
    IntToString(hawkId)
  }

  /** The slot numbers a delivery URL names, if it is one. */
  function ParseDeliveryUrl(url: string): Option<(int, int, int, int)> {
    if |url| < |PathPrefix| + |PathSuffix| || url[..|PathPrefix|] != PathPrefix
       || url[|url| - |PathSuffix|..] != PathSuffix then
      None
    else
      var parts := Split(url[|PathPrefix|..|url| - |PathSuffix|], '_');
      if |parts| != 4 then None
      else
        match (ParseInt(parts[0]), ParseInt(parts[1]), ParseInt(parts[2]), ParseInt(parts[3]))
        case (Some(i), Some(o), Some(b), Some(h)) => Some((i, o, b, h))
        case _ => None
  }

  lemma JoinFour(a: string, b: string, c: string, d: string, sep: char)
    ensures Join([a, b, c, d], sep) == a + [sep] + b + [sep] + c + [sep] + d
  {
    assert [c, d][1..] == [d];
    assert Join([c, d], sep) == c + [sep] + d;
    assert [b, c, d][1..] == [c, d];
    assert Join([b, c, d], sep) == b + [sep] + (c + [sep] + d);
    assert [a, b, c, d][1..] == [b, c, d];
  }

  /** Taking a text apart at the lengths of its known prefix and suffix gives the middle back. */
  lemma Framed(prefix: string, middle: string, suffix: string)
    ensures var text := prefix + middle + suffix;
            && |text| >= |prefix| + |suffix|
            && text[..|prefix|] == prefix
            && text[|text| - |suffix|..] == suffix
            && text[|prefix|..|text| - |suffix|] == middle
  {
    var text := prefix + middle + suffix;
    assert text[..|prefix|] == prefix;
    assert text[|text| - |suffix|..] == suffix;
    assert text[|prefix|..|text| - |suffix|] == middle;
  }

  /** The text between the path prefix and the suffix of a delivery URL. */
  lemma DeliveryUrlMiddle(inning: int, over: int, ball: int, hawkId: int)
    ensures var url := DeliveryUrl(inning, over, ball, hawkId);
            && |url| >= |PathPrefix| + |PathSuffix|
            && url[..|PathPrefix|] == PathPrefix
            && url[|url| - |PathSuffix|..] == PathSuffix
            && url[|PathPrefix|..|url| - |PathSuffix|] ==
               Join([IntToString(inning), IntToString(over), IntToString(ball),
                     IntToString(hawkId)], '_')
  {
    var middle := Join([IntToString(inning), IntToString(over), IntToString(ball),
                        IntToString(hawkId)], '_');
    JoinFour(IntToString(inning), IntToString(over), IntToString(ball), IntToString(hawkId),
             '_');
    assert SlotPath(inning, over, ball, hawkId) == middle;
    Framed(PathPrefix, middle, PathSuffix);
  }

  /** A delivery URL determines the slot and match it asks for. */
  lemma DeliveryUrlRoundTrip(inning: int, over: int, ball: int, hawkId: int)
    ensures ParseDeliveryUrl(DeliveryUrl(inning, over, ball, hawkId)) ==
            Some((inning, over, ball, hawkId))
  {
    var numbers := [IntToString(inning), IntToString(over), IntToString(ball),
                    IntToString(hawkId)];
    DeliveryUrlMiddle(inning, over, ball, hawkId);
    forall k | 0 <= k < |numbers|
      ensures '_' !in numbers[k]
    {
      IntToStringHasNo([inning, over, ball, hawkId][k], '_');
    }
    SplitJoin(numbers, '_');
    IntToStringRoundTrip(inning);
    IntToStringRoundTrip(over);
    IntToStringRoundTrip(ball);
    IntToStringRoundTrip(hawkId);
  }

  /** Different slots or matches are never requested under the same URL. */
  lemma DeliveryUrlInjective(i1: int, o1: int, b1: int, h1: int, i2: int, o2: int, b2: int,
                             h2: int)
    requires DeliveryUrl(i1, o1, b1, h1) == DeliveryUrl(i2, o2, b2, h2)
    ensures i1 == i2 && o1 == o2 && b1 == b2 && h1 == h2
  {
    DeliveryUrlRoundTrip(i1, o1, b1, h1);
    DeliveryUrlRoundTrip(i2, o2, b2, h2);
  }

  /** What `requests.get(url).json()` gave: a parsed document, or an exception that the
      script catches and reports (a connection error or a body that is not JSON). */
  datatype Response = Body(json: Value) | RequestFailed

  /** One line of the CSV file: the header, or the cells of one delivery. */
  datatype Line = Header(names: seq<string>) | Record(cells: Row)

  type CsvFile = seq<Line>

  /** How one call of the scraper ended. */
  datatype Outcome =
    | Skipped          // falsy document: returned before reading anything
    | Created          // file replaced by the header and this delivery's row
    | Appended         // this delivery's row added at the end
    | Crashed(e: Error) // an exception escaped; nothing was written

  datatype Step = Step(outcome: Outcome, file: CsvFile)

  /** The write at scrap_hawkeye_data.py:133-138. The first-ball test mixes the document's
      own `innings` with the requested `over` and `ball`. */
  function WriteRow(file: CsvFile, row: Row, over: int, ball: int): (s: Step)
    requires |row| == |Columns|
    ensures s.outcome == Created || s.outcome == Appended
    ensures s.outcome == Created <==> EqualsInt(row[InningsColumn], 1) && over == 1 && ball == 1
    ensures s.outcome == Created ==> s.file == [Header(Columns), Record(row)]
    ensures s.outcome == Appended ==> s.file == file + [Record(row)]
  {
    if EqualsInt(row[InningsColumn], 1) && over == 1 && ball == 1 then
      Step(Created, [Header(Columns), Record(row)])
    else
      Step(Appended, file + [Record(row)])
  }

  /** One call of `parse_data_and_add_to_csv` (scrap_hawkeye_data.py:6-138). Every lookup
      happens before the write, so a document that lacks a key leaves the file as it was. */
  function AddDelivery(file: CsvFile, inning: int, over: int, ball: int, hawkId: int,
                       server: string -> Response): (s: Step)
    ensures s.outcome.Skipped? || s.outcome.Crashed? ==> s.file == file
    ensures server(DeliveryUrl(inning, over, ball, hawkId)) == RequestFailed ==>
              s == Step(Crashed(NoResponse), file)
    ensures server(DeliveryUrl(inning, over, ball, hawkId)).Body? ==>
              var doc := server(DeliveryUrl(inning, over, ball, hawkId)).json;
              && (s.outcome == Skipped <==> !Truthy(doc))
              && (Truthy(doc) && ExtractRow(doc).Failure? ==>
                    s.outcome == Crashed(ExtractRow(doc).error))
              && (Truthy(doc) && ExtractRow(doc).Success? ==>
                    s == WriteRow(file, ExtractRow(doc).value, over, ball))
  {
    match server(DeliveryUrl(inning, over, ball, hawkId))
    case RequestFailed => Step(Crashed(NoResponse), file)
    case Body(doc) =>
      if !Truthy(doc) then Step(Skipped, file)
      else
        match ExtractRow(doc)
        case Failure(e) => Step(Crashed(e), file)
        case Success(row) => WriteRow(file, row, over, ball)
  }

  /** For a truthy document, the call crashes exactly when some column of the table cannot be
      read, and then writes nothing; otherwise the line it writes last holds, column by
      column, the values the table names. */
  lemma AddDeliveryFollowsSchema(file: CsvFile, inning: int, over: int, ball: int, hawkId: int,
                                 server: string -> Response, doc: Value)
    requires server(DeliveryUrl(inning, over, ball, hawkId)) == Body(doc)
    requires Truthy(doc)
    ensures var s := AddDelivery(file, inning, over, ball, hawkId, server);
            && (s.outcome.Crashed? <==> !Readable(doc, Schema))
            && (s.outcome.Crashed? ==> s.file == file && s.outcome.e == ExtractRow(doc).error)
            && (!s.outcome.Crashed? ==>
                  && |s.file| > 0 && s.file[|s.file| - 1].Record?
                  && |s.file[|s.file| - 1].cells| == |Schema|
                  && forall i :: 0 <= i < |Schema| ==>
                       ColumnValue(doc, Schema[i].source) == Success(s.file[|s.file| - 1].cells[i]))
  {
    RowFollowsSchema(doc);
    var s := AddDelivery(file, inning, over, ball, hawkId, server);
    if ExtractRow(doc).Failure? {
      assert s == Step(Crashed(ExtractRow(doc).error), file);
    } else {
      var row := ExtractRow(doc).value;
      assert s == WriteRow(file, row, over, ball);
      assert s.file[|s.file| - 1] == Record(row);
    }
  }

  /** A call writes the header exactly when it asks for over 1, ball 1 and the document it gets
      is readable and says innings 1. The requested innings plays no part, so a request for
      the first ball of the second innings can create the file too. */
  lemma AddDeliveryCreates(file: CsvFile, inning: int, over: int, ball: int, hawkId: int,
                           server: string -> Response)
    ensures var response := server(DeliveryUrl(inning, over, ball, hawkId));
            AddDelivery(file, inning, over, ball, hawkId, server).outcome == Created <==>
              && over == 1 && ball == 1
              && response.Body? && Truthy(response.json) && ExtractRow(response.json).Success?
              && EqualsInt(ExtractRow(response.json).value[InningsColumn], 1)
  {
  }

  /** The cell deciding between overwrite and append is the document's innings, not the
      requested one. */
  lemma InningsCellFromDocument(doc: Value)
    requires ExtractRow(doc).Success?
    ensures ColumnValue(doc, Field(DeliveryNumber, "innings")) ==
            Success(ExtractRow(doc).value[InningsColumn])
  {
    RowFollowsSchema(doc);
    SchemaMatchesColumns();
  }

  /** The file only ever gains a row at the end, unless the header is rewritten. */
  lemma AddDeliveryAppendOnly(file: CsvFile, inning: int, over: int, ball: int, hawkId: int,
                              server: string -> Response)
    requires over != 1 || ball != 1
    ensures var s := AddDelivery(file, inning, over, ball, hawkId, server);
            |s.file| >= |file| && s.file[..|file|] == file
  {
  }

  /** A position of the driver's nested loops. */
  datatype Slot = Slot(innings: int, over: int, ball: int)

  const InningsCount: nat := 2
  const OversPerInnings: nat := 20
  const BallsPerOver: nat := 9
  const SlotCount: nat := InningsCount * OversPerInnings * BallsPerOver

  /** The slots `range(1,3) x range(1,21) x range(1,10)` of scrap_hawkeye_data.py:144-146. */
  predicate InGrid(s: Slot) {
    && 1 <= s.innings <= InningsCount
    && 1 <= s.over <= OversPerInnings
    && 1 <= s.ball <= BallsPerOver
  }

  /** Strict lexicographic order on (innings, over, ball). */
  predicate Before(s: Slot, t: Slot) {
    || s.innings < t.innings
    || (s.innings == t.innings && s.over < t.over)
    || (s.innings == t.innings && s.over == t.over && s.ball < t.ball)
  }

  /** How many slots the driver visits before `s`. */
  function SlotIndex(s: Slot): (k: nat)
    requires InGrid(s)
    ensures k < SlotCount
  {
    (s.innings - 1) * (OversPerInnings * BallsPerOver) + (s.over - 1) * BallsPerOver +
    (s.ball - 1)
  }

  /** The slot the driver visits at step `k`. */
  function SlotAt(k: nat): (s: Slot)
    requires k < SlotCount
    ensures InGrid(s) && SlotIndex(s) == k
  {
    var perInnings := OversPerInnings * BallsPerOver;
    Slot(k / perInnings + 1, (k % perInnings) / BallsPerOver + 1,
         (k % perInnings) % BallsPerOver + 1)
  }

  /** Every slot of the grid is visited, at the step its index names. */
  lemma SlotAtIndex(s: Slot)
    requires InGrid(s)
    ensures SlotAt(SlotIndex(s)) == s
  {
    var k := SlotIndex(s);
    var perInnings := OversPerInnings * BallsPerOver;
    var rest := (s.over - 1) * BallsPerOver + (s.ball - 1);
    assert k == (s.innings - 1) * perInnings + rest && 0 <= rest < perInnings;
    assert k / perInnings == s.innings - 1 && k % perInnings == rest;
  }

  /** Visiting order and index order coincide. */
  lemma BeforeByIndex(s: Slot, t: Slot)
    requires InGrid(s) && InGrid(t)
    ensures Before(s, t) <==> SlotIndex(s) < SlotIndex(t)
  {
  }

  /** The driver's slots in visiting order. */
  function Grid(): (g: seq<Slot>)
    ensures |g| == SlotCount
  {
    seq(SlotCount, k requires 0 <= k < SlotCount => SlotAt(k))
  }

  /** The driver visits 2 x 20 x 9 = 360 slots, each strictly after the previous one, and
      every slot of the grid among them. */
  lemma GridOrderedAndComplete()
    ensures |Grid()| == 360
    ensures forall i, j :: 0 <= i < j < |Grid()| ==> Before(Grid()[i], Grid()[j])
    ensures forall k :: 0 <= k < |Grid()| ==> InGrid(Grid()[k])
    ensures forall s :: InGrid(s) ==> s in Grid()
  {
    forall i, j | 0 <= i < j < |Grid()|
      ensures Before(Grid()[i], Grid()[j])
    {
      BeforeByIndex(Grid()[i], Grid()[j]);
    }
    forall s | InGrid(s)
      ensures s in Grid()
    {
      SlotAtIndex(s);
      assert Grid()[SlotIndex(s)] == s;
    }
  }

  /** The nested `for` loops of the driver, producing the slots in the order they run: the
      grid the whole script walks. */
  method EnumerateSlots() returns (slots: seq<Slot>)
    ensures |slots| == SlotCount
    ensures forall k :: 0 <= k < |slots| ==> InGrid(slots[k]) && SlotIndex(slots[k]) == k
    ensures slots == Grid()
  {
    slots := [];
    var innings := 1;
    while innings < InningsCount + 1
      invariant 1 <= innings <= InningsCount + 1
      invariant |slots| == (innings - 1) * (OversPerInnings * BallsPerOver)
      invariant forall k :: 0 <= k < |slots| ==> InGrid(slots[k]) && SlotIndex(slots[k]) == k
    {
      var over := 1;
      while over < OversPerInnings + 1
        invariant 1 <= over <= OversPerInnings + 1
        invariant |slots| == (innings - 1) * (OversPerInnings * BallsPerOver) +
                             (over - 1) * BallsPerOver
        invariant forall k :: 0 <= k < |slots| ==> InGrid(slots[k]) && SlotIndex(slots[k]) == k
      {
        var ball := 1;
        while ball < BallsPerOver + 1
          invariant 1 <= ball <= BallsPerOver + 1
          invariant |slots| == (innings - 1) * (OversPerInnings * BallsPerOver) +
                               (over - 1) * BallsPerOver + (ball - 1)
          invariant forall k :: 0 <= k < |slots| ==>
                      InGrid(slots[k]) && SlotIndex(slots[k]) == k
        {
          slots := slots + [Slot(innings, over, ball)];
          ball := ball + 1;
        }
        over := over + 1;
      }
      innings := innings + 1;
    }
    forall k | 0 <= k < |slots|
      ensures slots[k] == Grid()[k]
    {
      SlotAtIndex(slots[k]);
    }
  }

  /** What a run of the driver leaves behind: the file, and the exception that ended the
      script early, if one did. */
  datatype Run = Run(file: CsvFile, crash: Option<Error>)

  /** The driver's loop over `slots`. An exception escapes `__main__`, so the first crash
      ends the run. */
  function RunSlots(file: CsvFile, slots: seq<Slot>, hawkId: int, server: string -> Response)
    : Run
    decreases |slots|
  {
    if |slots| == 0 then Run(file, None)
    else
      var s := slots[0];
      var step := AddDelivery(file, s.innings, s.over, s.ball, hawkId, server);
      if step.outcome.Crashed? then Run(step.file, Some(step.outcome.e))
      else RunSlots(step.file, slots[1..], hawkId, server)
  }

  /** The whole script: every slot of the grid, starting from whatever `yourfile.csv` holds
      (the empty sequence when there is no such file). */
  function ScrapeMatch(initial: CsvFile, hawkId: int, server: string -> Response): Run {
    RunSlots(initial, Grid(), hawkId, server)
  }

  /** The script first asks for the first ball of the first innings; when that request fails,
      the exception ends the script before the file is touched. */
  lemma ScrapeMatchStopsAtFirstFailure(initial: CsvFile, hawkId: int, server: string -> Response)
    requires server(DeliveryUrl(1, 1, 1, hawkId)) == RequestFailed
    ensures ScrapeMatch(initial, hawkId, server) == Run(initial, Some(NoResponse))
  {
    assert Grid()[0] == SlotAt(0) == Slot(1, 1, 1);
  }

  /** Without a first-ball slot the driver only appends: the rows already in the file stay
      in place, ahead of everything the run adds. */
  lemma {:induction false} RunSlotsKeepsRows(file: CsvFile, slots: seq<Slot>, hawkId: int,
                                            server: string -> Response)
    requires forall k :: 0 <= k < |slots| ==> slots[k].over != 1 || slots[k].ball != 1
    ensures var r := RunSlots(file, slots, hawkId, server);
            |r.file| >= |file| && r.file[..|file|] == file
    decreases |slots|
  {
    if |slots| > 0 {
      var s := slots[0];
      var step := AddDelivery(file, s.innings, s.over, s.ball, hawkId, server);
      AddDeliveryAppendOnly(file, s.innings, s.over, s.ball, hawkId, server);
      if !step.outcome.Crashed? {
        RunSlotsKeepsRows(step.file, slots[1..], hawkId, server);
        var r := RunSlots(step.file, slots[1..], hawkId, server);
        assert r.file[..|file|] == r.file[..|step.file|][..|file|];
      }
    }
  }

  /** When the document for the first ball of a match is falsy, the next delivery is appended
      to whatever the file already holds: stale lines stay, and a file that did not exist gets
      no header. */
  lemma MissingFirstBallLosesHeader(initial: CsvFile, hawkId: int, server: string -> Response,
                                    doc: Value)
    requires server(DeliveryUrl(1, 1, 1, hawkId)) == Body(JNull)
    requires server(DeliveryUrl(1, 1, 2, hawkId)) == Body(doc)
    requires Truthy(doc) && ExtractRow(doc).Success?
    ensures RunSlots(initial, [Slot(1, 1, 1), Slot(1, 1, 2)], hawkId, server) ==
            Run(initial + [Record(ExtractRow(doc).value)], None)
    ensures RunSlots([], [Slot(1, 1, 1), Slot(1, 1, 2)], hawkId, server) ==
            Run([Record(ExtractRow(doc).value)], None)
  {
    var first := AddDelivery(initial, 1, 1, 1, hawkId, server);
    assert first == Step(Skipped, initial);
    assert AddDelivery([], 1, 1, 1, hawkId, server) == Step(Skipped, []);
    assert [Slot(1, 1, 1), Slot(1, 1, 2)][1..] == [Slot(1, 1, 2)];
  }
}

=== FILE: json.dfy ===
/** The parsed ball-tracking document as a JSON value tree, and the few Python operations the
    scraper applies to such values: subscripting by key, truthiness, comparison with an
    integer, subtraction of one and `str` formatting. */
module Json {
  import opened Wrappers
  import opened Decimal

  /** A JSON value as `response.json()` hands it to Python. Objects have unique keys, as
      Python dictionaries do. */
  datatype Value =
    | JNull
    | JBool(b: bool)
    | JInt(i: int)
    | JReal(r: real)
    | JStr(s: string)
    | JArr(items: seq<Value>)
    | JObj(fields: map<string, Value>)

  /** The exceptions the scraper can raise while handling one delivery. */
  datatype Error =
    | KeyMissing(key: string)       // KeyError: the object has no such key
    | NotSubscriptable(key: string) // TypeError: subscripting a value that is not an object
    | BadOperand                    // TypeError: `over_num - 1` on a non-number
    | Unrepresented                 // formatting of floats and containers is not modelled
    | NoResponse                    // the request failed, so `data` was never bound

  /** Python `x[key]` on a value decoded from JSON. */
  function Get(v: Value, key: string): (r: Result<Value, Error>)
    ensures r.Success? <==> v.JObj? && key in v.fields
    ensures r.Success? ==> r.value == v.fields[key]
    ensures r.Failure? ==> r.error == (if v.JObj? then KeyMissing(key) else NotSubscriptable(key))
  {
    match v
    case JObj(m) => if key in m then Success(m[key]) else Failure(KeyMissing(key))
    case _ => Failure(NotSubscriptable(key))
  }

  /** Python `bool(v)`: null, false, zero and empty strings, lists and objects are falsy. */
  predicate Truthy(v: Value) {
    match v
    case JNull => false
    case JBool(b) => b
    case JInt(i) => i != 0
    case JReal(r) => r != 0.0
    case JStr(s) => |s| > 0
    case JArr(items) => |items| > 0
    case JObj(m) => |m| > 0
  }

  /** Python `v == n` for an integer `n`: booleans and floats compare numerically, strings,
      null and containers never equal a number. */
  predicate EqualsInt(v: Value, n: int) {
    match v
    case JBool(b) => (if b then 1 else 0) == n
    case JInt(i) => i == n
    case JReal(r) => r == n as real
    case _ => false
  }

  /** Python `v - 1`, followed by `str` of the difference. */
  function PredecessorText(v: Value): (r: Result<string, Error>)
    ensures v.JInt? ==> r == Success(IntToString(v.i - 1))
    ensures v.JBool? ==> r == Success(if v.b then "0" else "-1")
    ensures v.JReal? ==> r == Failure(Unrepresented)
    ensures v.JNull? || v.JStr? || v.JArr? || v.JObj? ==> r == Failure(BadOperand)
  {
    match v
    case JBool(b) =>
      assert NatToString(0) == [DigitChar(0)] == "0";
      assert NatToString(1) == [DigitChar(1)] == "1";
      assert IntToString(0) == "0" && IntToString(-1) == "-" + "1" == "-1";
      Success(IntToString((if b then 1 else 0) - 1))
    case JInt(i) => Success(IntToString(i - 1))
    case JReal(_) => Failure(Unrepresented)
    case _ => Failure(BadOperand)
  }

  /** Python `str(v)` for the scalars whose text the model can write out. */
  function Text(v: Value): (r: Result<string, Error>)
    ensures v.JNull? ==> r == Success("None")
    ensures v.JBool? ==> r == Success(if v.b then "True" else "False")
    ensures v.JInt? ==> r == Success(IntToString(v.i))
    ensures v.JStr? ==> r == Success(v.s)
    ensures v.JReal? || v.JArr? || v.JObj? ==> r == Failure(Unrepresented)
  {
    match v
    case JNull => Success("None")
    case JBool(b) => Success(if b then "True" else "False")
    case JInt(i) => Success(IntToString(i))
    case JStr(s) => Success(s)
    case _ => Failure(Unrepresented)
  }

  /** Python's comparison with 1 is looser than equality of JSON values: exactly the integer
      1, `true` and the float 1.0 pass, so the string "1" does not. */
  lemma EqualsOneExactly(v: Value)
    ensures EqualsInt(v, 1) <==> v == JInt(1) || v == JBool(true) || v == JReal(1.0)
  {
  }
}

=== FILE: length_taxonomy.dfy ===
/** Length buckets of a delivery and the first-match threshold classifier that the pitch map's
    `classify_length1` and `classify_length2` are both instances of
    (genereate_pitch_map_batter.py:73-88). A taxonomy is an ordered list of (length, bound)
    pairs and a fallback: a distance `y` gets the length of the first pair with `y < bound`. */
module LengthTaxonomy {

  /** The lengths in the order a delivery gets shorter. */
  datatype Length = FullToss | Yorker | Slot | Full | Good | BackOfLength | Short
  {
    /** The label the pitch map writes for this length. */
    function Name(): string {
      match this
      case FullToss => "full toss"
      case Yorker => "yorker"
      case Slot => "slot"
      case Full => "full"
      case Good => "good"
      case BackOfLength => "back of length"
      case Short => "short"
    }

    /** Position in the order full toss < yorker < slot < full < good < back of length < short. */
    function Rank(): nat {
      match this
      case FullToss => 0
      case Yorker => 1
      case Slot => 2
      case Full => 3
      case Good => 4
      case BackOfLength => 5
      case Short => 6
    }
  }

  lemma NameInjective(a: Length, b: Length)
    requires a.Name() == b.Name()
    ensures a == b
  {
  }

  /** Distances below `bound` (and not claimed by an earlier band) get `length`. */
  datatype Band = Band(length: Length, bound: real)

  datatype Taxonomy = Taxonomy(bands: seq<Band>, otherwise: Length)

  /** Index of the first band whose bound exceeds `y`; `|bands|` when there is none. */
  function Bucket(bands: seq<Band>, y: real): (k: nat)
    ensures k <= |bands|
    ensures k < |bands| ==> y < bands[k].bound
    ensures forall j :: 0 <= j < k ==> bands[j].bound <= y
    decreases |bands|
  {
    if |bands| == 0 then 0
    else if y < bands[0].bound then 0
    else 1 + Bucket(bands[1..], y)
  }

  function Classify(t: Taxonomy, y: real): Length {
    var k := Bucket(t.bands, y);
    if k < |t.bands| then t.bands[k].length else t.otherwise
  }

  /** Bounds strictly increase along the list. */
  predicate Ascending(bands: seq<Band>) {
    forall i, j :: 0 <= i < j < |bands| ==> bands[i].bound < bands[j].bound
  }

  /** Lengths get strictly shorter along the list, and the fallback is the shortest. */
  predicate Shortening(t: Taxonomy) {
    && (forall i, j :: 0 <= i < j < |t.bands| ==>
          t.bands[i].length.Rank() < t.bands[j].length.Rank())
    && (forall i :: 0 <= i < |t.bands| ==> t.bands[i].length.Rank() < t.otherwise.Rank())
  }

  /** Well-formedness checked between neighbours only. */
  predicate StepwiseOrdered(t: Taxonomy) {
    && (forall i :: 0 <= i < |t.bands| - 1 ==> t.bands[i].bound < t.bands[i + 1].bound)
    && (forall i :: 0 <= i < |t.bands| - 1 ==>
          t.bands[i].length.Rank() < t.bands[i + 1].length.Rank())
    && (|t.bands| > 0 ==> t.bands[|t.bands| - 1].length.Rank() < t.otherwise.Rank())
  }

  /** Bounds and ranks ordered between neighbours are ordered between any two bands. */
  lemma {:induction false} StepwiseOrderedPairs(t: Taxonomy, i: nat, j: nat)
    requires StepwiseOrdered(t)
    requires i < j < |t.bands|
    ensures t.bands[i].bound < t.bands[j].bound
    ensures t.bands[i].length.Rank() < t.bands[j].length.Rank()
    decreases j - i
  {
    if j > i + 1 {
      StepwiseOrderedPairs(t, i + 1, j);
    }
  }

  lemma StepwiseWellFormed(t: Taxonomy)
    requires StepwiseOrdered(t)
    ensures Ascending(t.bands) && Shortening(t)
  {
    forall i, j | 0 <= i < j < |t.bands|
      ensures t.bands[i].bound < t.bands[j].bound
      ensures t.bands[i].length.Rank() < t.bands[j].length.Rank()
    {
      StepwiseOrderedPairs(t, i, j);
    }
    forall i | 0 <= i < |t.bands|
      ensures t.bands[i].length.Rank() < t.otherwise.Rank()
    {
      if i < |t.bands| - 1 {
        StepwiseOrderedPairs(t, i, |t.bands| - 1);
      }
    }
  }

  /** The first band `y` falls under is characterised by the bounds alone: `y` is below its
      bound and at or above every earlier one. */
  lemma BucketUnique(bands: seq<Band>, y: real, k: nat)
    requires k <= |bands|
    requires k < |bands| ==> y < bands[k].bound
    requires forall j :: 0 <= j < k ==> bands[j].bound <= y
    ensures Bucket(bands, y) == k
  {
  }

  /** A larger distance never lands in an earlier band, whatever the bounds. */
  lemma BucketMonotone(bands: seq<Band>, y1: real, y2: real)
    requires y1 <= y2
    ensures Bucket(bands, y1) <= Bucket(bands, y2)
  {
  }

  /** The classifier is monotone: a larger distance never gives a fuller length. */
  lemma ClassifyMonotone(t: Taxonomy, y1: real, y2: real)
    requires Shortening(t)
    requires y1 <= y2
    ensures Classify(t, y1).Rank() <= Classify(t, y2).Rank()
  {
    BucketMonotone(t.bands, y1, y2);
  }

  /** Comparisons are strict, so a distance equal to a bound belongs to the next band. */
  lemma BoundGoesToNextBand(t: Taxonomy, i: nat)
    requires Ascending(t.bands)
    requires i < |t.bands|
    ensures Classify(t, t.bands[i].bound) ==
            (if i + 1 < |t.bands| then t.bands[i + 1].length else t.otherwise)
  {
    BucketUnique(t.bands, t.bands[i].bound, i + 1);
  }
}

=== FILE: pitch_map.dfy ===
/** The two length taxonomies of the dual pitch map (genereate_pitch_map_batter.py:73-118):
    the pace classifier with seven lengths, the spin classifier without "full", their colour
    maps, and the hand-written region tables that shade the same lengths on the plot.

    Distances `y` are measured from the batter's stumps. The plot's vertical axis shows
    `PitchLength - y`, so the region tables are written in that flipped coordinate. Distances
    and bounds are `real`: the model has no floating-point rounding. */
module PitchMap {
  import opened LengthTaxonomy

  /** Length of the pitch in metres (genereate_pitch_map_batter.py:40). */
  const PitchLength: real := 20.12

  /** `classify_length1`, the pace version (lines 73-80). */
  function ClassifyLength1(y: real): Length {
    if y < 0.0 then FullToss
    else if y < 2.0 then Yorker
    else if y < 4.0 then Slot
    else if y < 6.0 then Full
    else if y < 8.0 then Good
    else if y < 10.0 then BackOfLength
    else Short
  }

  /** `classify_length2`, the spin version (lines 82-88). */
  function ClassifyLength2(y: real): Length {
    if y < 0.0 then FullToss
    else if y < 2.0 then Yorker
    else if y < 4.0 then Slot
    else if y < 6.0 then Good
    else if y < 7.0 then BackOfLength
    else Short
  }

  const PaceTaxonomy: Taxonomy :=
    Taxonomy([Band(FullToss, 0.0), Band(Yorker, 2.0), Band(Slot, 4.0), Band(Full, 6.0),
              Band(Good, 8.0), Band(BackOfLength, 10.0)], Short)

  const SpinTaxonomy: Taxonomy :=
    Taxonomy([Band(FullToss, 0.0), Band(Yorker, 2.0), Band(Slot, 4.0), Band(Good, 6.0),
              Band(BackOfLength, 7.0)], Short)

  /** Both tables have ascending bounds and lengths that get shorter band by band. */
  lemma TaxonomiesWellFormed()
    ensures Ascending(PaceTaxonomy.bands) && Shortening(PaceTaxonomy)
    ensures Ascending(SpinTaxonomy.bands) && Shortening(SpinTaxonomy)
  {
    PaceStepwise();
    StepwiseWellFormed(PaceTaxonomy);
    SpinStepwise();
    StepwiseWellFormed(SpinTaxonomy);
  }

  lemma PaceStepwise()
    ensures StepwiseOrdered(PaceTaxonomy)
  {
  }

  lemma SpinStepwise()
    ensures StepwiseOrdered(SpinTaxonomy)
  {
  }

  /** The pace if-chain is the first-match classifier over the pace table. */
  lemma PaceIsTaxonomy(y: real)
    ensures ClassifyLength1(y) == Classify(PaceTaxonomy, y)
  {
    var bands := PaceTaxonomy.bands;
    var k := if y < 0.0 then 0 else if y < 2.0 then 1 else if y < 4.0 then 2
             else if y < 6.0 then 3 else if y < 8.0 then 4 else if y < 10.0 then 5 else 6;
    BucketUnique(bands, y, k);
  }

  /** The spin if-chain is the first-match classifier over the spin table. */
  lemma SpinIsTaxonomy(y: real)
    ensures ClassifyLength2(y) == Classify(SpinTaxonomy, y)
  {
    var bands := SpinTaxonomy.bands;
    var k := if y < 0.0 then 0 else if y < 2.0 then 1 else if y < 4.0 then 2
             else if y < 6.0 then 3 else if y < 7.0 then 4 else 5;
    BucketUnique(bands, y, k);
  }

  /** Both classifiers are monotone: a delivery pitching further from the batter is never
      given a fuller length. */
  lemma ClassifiersMonotone(y1: real, y2: real)
    requires y1 <= y2
    ensures ClassifyLength1(y1).Rank() <= ClassifyLength1(y2).Rank()
    ensures ClassifyLength2(y1).Rank() <= ClassifyLength2(y2).Rank()
  {
    TaxonomiesWellFormed();
    PaceIsTaxonomy(y1);
    PaceIsTaxonomy(y2);
    ClassifyMonotone(PaceTaxonomy, y1, y2);
    SpinIsTaxonomy(y1);
    SpinIsTaxonomy(y2);
    ClassifyMonotone(SpinTaxonomy, y1, y2);
  }

  /** The tests are strict, so a distance equal to a threshold takes the shorter length. */
  lemma ThresholdsGoToShorterLength()
    ensures ClassifyLength1(0.0) == Yorker && ClassifyLength1(2.0) == Slot
    ensures ClassifyLength1(4.0) == Full && ClassifyLength1(6.0) == Good
    ensures ClassifyLength1(8.0) == BackOfLength && ClassifyLength1(10.0) == Short
    ensures ClassifyLength2(0.0) == Yorker && ClassifyLength2(2.0) == Slot
    ensures ClassifyLength2(4.0) == Good && ClassifyLength2(6.0) == BackOfLength
    ensures ClassifyLength2(7.0) == Short
  {
    TaxonomiesWellFormed();
    forall i | 0 <= i < |PaceTaxonomy.bands|
      ensures ClassifyLength1(PaceTaxonomy.bands[i].bound) ==
              (if i + 1 < |PaceTaxonomy.bands| then PaceTaxonomy.bands[i + 1].length else Short)
    {
      PaceIsTaxonomy(PaceTaxonomy.bands[i].bound);
      BoundGoesToNextBand(PaceTaxonomy, i);
    }
    forall i | 0 <= i < |SpinTaxonomy.bands|
      ensures ClassifyLength2(SpinTaxonomy.bands[i].bound) ==
              (if i + 1 < |SpinTaxonomy.bands| then SpinTaxonomy.bands[i + 1].length else Short)
    {
      SpinIsTaxonomy(SpinTaxonomy.bands[i].bound);
      BoundGoesToNextBand(SpinTaxonomy, i);
    }
    assert PaceTaxonomy.bands[0].bound == 0.0 && PaceTaxonomy.bands[5].bound == 10.0;
    assert SpinTaxonomy.bands[4].bound == 7.0;
  }

  /** The spin classifier has no "full" length: [4, 6) is good, [6, 7) back of length and
      everything from 7 on short. */
  lemma SpinLengths(y: real)
    ensures ClassifyLength2(y) != Full
    ensures 4.0 <= y < 6.0 ==> ClassifyLength2(y) == Good
    ensures 6.0 <= y < 7.0 ==> ClassifyLength2(y) == BackOfLength
    ensures 7.0 <= y ==> ClassifyLength2(y) == Short
  {
  }

  /** `length_colors1` (lines 91-94). */
  const LengthColors1: map<string, string> :=
    map["full toss" := "grey", "yorker" := "green", "slot" := "cyan", "full" := "blue",
        "good" := "purple", "back of length" := "orange", "short" := "red"]

  /** `length_colors2` (lines 96-99). */
  const LengthColors2: map<string, string> :=
    map["full toss" := "grey", "yorker" := "green", "slot" := "cyan",
        "good" := "purple", "back of length" := "orange", "short" := "red"]

  /** Each colour map has a key for every label its classifier can return, and no other key. */
  lemma ColorKeysAreClassifierLabels()
    ensures forall y :: ClassifyLength1(y).Name() in LengthColors1
    ensures forall y :: ClassifyLength2(y).Name() in LengthColors2
    ensures forall k :: k in LengthColors1 ==> exists y :: ClassifyLength1(y).Name() == k
    ensures forall k :: k in LengthColors2 ==> exists y :: ClassifyLength2(y).Name() == k
  {
    forall k | k in LengthColors1
      ensures exists y :: ClassifyLength1(y).Name() == k
    {
      var y := if k == "full toss" then -1.0 else if k == "yorker" then 0.0
               else if k == "slot" then 2.0 else if k == "full" then 4.0
               else if k == "good" then 6.0 else if k == "back of length" then 8.0 else 10.0;
      assert ClassifyLength1(y).Name() == k;
    }
    forall k | k in LengthColors2
      ensures exists y :: ClassifyLength2(y).Name() == k
    {
      var y := if k == "full toss" then -1.0 else if k == "yorker" then 0.0
               else if k == "slot" then 2.0 else if k == "good" then 4.0
               else if k == "back of length" then 6.0 else 7.0;
      assert ClassifyLength2(y).Name() == k;
    }
  }

  /** One shaded band of the plot, in plotted coordinates. */
  datatype Region = Region(length: Length, yMin: real, yMax: real)

  /** `length_regions1` (lines 101-109). */
  const LengthRegions1: seq<Region> :=
    [Region(FullToss, PitchLength, PitchLength + 1.0),
     Region(Yorker, PitchLength - 2.0, PitchLength),
     Region(Slot, PitchLength - 4.0, PitchLength - 2.0),
     Region(Full, PitchLength - 6.0, PitchLength - 4.0),
     Region(Good, PitchLength - 8.0, PitchLength - 6.0),
     Region(BackOfLength, PitchLength - 10.0, PitchLength - 8.0),
     Region(Short, 0.0, PitchLength - 10.0)]

  /** `length_regions2` (lines 111-118). */
  const LengthRegions2: seq<Region> :=
    [Region(FullToss, PitchLength, PitchLength + 1.0),
     Region(Yorker, PitchLength - 2.0, PitchLength),
     Region(Slot, PitchLength - 4.0, PitchLength - 2.0),
     Region(Good, PitchLength - 6.0, PitchLength - 4.0),
     Region(BackOfLength, PitchLength - 7.0, PitchLength - 6.0),
     Region(Short, 0.0, PitchLength - 7.0)]

  /** Non-empty bands, listed from the top of the plot down, each starting where the next ends. */
  predicate Contiguous(rs: seq<Region>) {
    && |rs| > 0
    && (forall i :: 0 <= i < |rs| ==> rs[i].yMin < rs[i].yMax)
    && (forall i :: 0 <= i < |rs| - 1 ==> rs[i].yMin == rs[i + 1].yMax)
  }

  /** A later band lies entirely below an earlier one. */
  lemma {:induction false} ContiguousOrdered(rs: seq<Region>, i: nat, j: nat)
    requires Contiguous(rs)
    requires i < j < |rs|
    ensures rs[j].yMax <= rs[i].yMin
    decreases j - i
  {
    if j > i + 1 {
      ContiguousOrdered(rs, i + 1, j);
      assert rs[i + 1].yMin < rs[i + 1].yMax;
    }
  }

  /** Every value between the bottom of the last band and the top of the first lies in some
      band. */
  lemma {:induction false} ContiguousCovers(rs: seq<Region>, v: real)
    requires Contiguous(rs)
    requires rs[|rs| - 1].yMin <= v <= rs[0].yMax
    ensures exists i :: 0 <= i < |rs| && rs[i].yMin <= v <= rs[i].yMax
    decreases |rs|
  {
    if rs[0].yMin > v {
      var rest := rs[1..];
      assert |rest| > 0;
      assert rest[|rest| - 1] == rs[|rs| - 1];
      ContiguousCovers(rest, v);
      var i :| 0 <= i < |rest| && rest[i].yMin <= v <= rest[i].yMax;
      assert rs[i + 1] == rest[i];
    }
  }

  /** Whether band `i` of `rs` is the one owning plotted value `v`: each band owns its top
      edge, and the last band also owns its bottom edge. */
  predicate Owns(rs: seq<Region>, i: nat, v: real)
    requires i < |rs|
  {
    rs[i].yMin < v <= rs[i].yMax || (i == |rs| - 1 && v == rs[i].yMin)
  }

  /** A value in the span of a contiguous table is owned by exactly one band. */
  lemma OwnerUnique(rs: seq<Region>, i: nat, j: nat, v: real)
    requires Contiguous(rs)
    requires i < |rs| && j < |rs|
    requires Owns(rs, i, v) && Owns(rs, j, v)
    ensures i == j
  {
    if i < j {
      ContiguousOrdered(rs, i, j);
    } else if j < i {
      ContiguousOrdered(rs, j, i);
    }
  }

  /** Both region tables are contiguous, span the plotted values 0 to `PitchLength + 1`, and
      shade each length at most once, with a colour from their own colour map. */
  lemma RegionTablesWellFormed()
    ensures Contiguous(LengthRegions1) && Contiguous(LengthRegions2)
    ensures LengthRegions1[0].yMax == PitchLength + 1.0 && LengthRegions1[6].yMin == 0.0
    ensures LengthRegions2[0].yMax == PitchLength + 1.0 && LengthRegions2[5].yMin == 0.0
    ensures forall i, j :: 0 <= i < j < |LengthRegions1| ==>
              LengthRegions1[i].length != LengthRegions1[j].length
    ensures forall i, j :: 0 <= i < j < |LengthRegions2| ==>
              LengthRegions2[i].length != LengthRegions2[j].length
    ensures forall i :: 0 <= i < |LengthRegions1| ==> LengthRegions1[i].length.Name() in LengthColors1
    ensures forall i :: 0 <= i < |LengthRegions2| ==> LengthRegions2[i].length.Name() in LengthColors2
  {
  }

  /** The pace classifier and its region table agree: for a distance between one metre
      behind the batter's stumps and the bowler's stumps, the plotted value falls in the band
      of the classifier's length, and that band is the one owning the value. */
  lemma PaceRegionsAgree(y: real)
    requires -1.0 <= y <= PitchLength
    ensures exists i :: 0 <= i < |LengthRegions1| && LengthRegions1[i].length == ClassifyLength1(y)
    ensures forall i :: 0 <= i < |LengthRegions1| && LengthRegions1[i].length == ClassifyLength1(y) ==>
              LengthRegions1[i].yMin <= PitchLength - y <= LengthRegions1[i].yMax
    ensures forall i :: 0 <= i < |LengthRegions1| ==>
              (Owns(LengthRegions1, i, PitchLength - y) <==> LengthRegions1[i].length == ClassifyLength1(y))
  {
    assert LengthRegions1[ClassifyLength1(y).Rank()].length == ClassifyLength1(y);
  }

  /** The spin classifier and its region table agree in the same sense. */
  lemma SpinRegionsAgree(y: real)
    requires -1.0 <= y <= PitchLength
    ensures exists i :: 0 <= i < |LengthRegions2| && LengthRegions2[i].length == ClassifyLength2(y)
    ensures forall i :: 0 <= i < |LengthRegions2| && LengthRegions2[i].length == ClassifyLength2(y) ==>
              LengthRegions2[i].yMin <= PitchLength - y <= LengthRegions2[i].yMax
    ensures forall i :: 0 <= i < |LengthRegions2| ==>
              (Owns(LengthRegions2, i, PitchLength - y) <==> LengthRegions2[i].length == ClassifyLength2(y))
  {
    var i := if ClassifyLength2(y).Rank() < 3 then ClassifyLength2(y).Rank()
             else ClassifyLength2(y).Rank() - 1;
    assert LengthRegions2[i].length == ClassifyLength2(y);
  }
}

=== FILE: pitch_plot.dfy ===
/** The data side of `generate_dual_batter_pitch_map` (genereate_pitch_map_batter.py:5-171):
    input validation and filtering, the outcome shown by each marker with its colour and
    legend label, where a marker lands, and the relabelled y-axis ticks. Drawing is left to
    matplotlib and is not modelled; the model computes what would be drawn. */
module PitchPlot {
  import opened Wrappers
  import opened Decimal
  import opened LengthTaxonomy
  import opened PitchMap

  /** What a delivery's marker stands for: a wicket (`runs == -1`) or the runs scored. */
  datatype Outcome = Wicket | Runs(n: int)

  /** `'W' if row['runs'] == -1 else row['runs']` (line 129). */
  function OutcomeOf(runs: int): (o: Outcome)
    ensures o == Wicket <==> runs == -1
    ensures o.Runs? ==> o.n == runs
  {
    if runs == -1 then Wicket else Runs(runs)
  }

  /** `str(outcome)`: the legend text of an outcome. */
  function OutcomeText(o: Outcome): string {
    match o
    case Wicket => "W"
    case Runs(n) => IntToString(n)
  }

  /** Different outcomes never share a legend text. */
  lemma OutcomeTextInjective(a: Outcome, b: Outcome)
    requires OutcomeText(a) == OutcomeText(b)
    ensures a == b
  {
    match a
    case Wicket =>
    case Runs(n) =>
      if b.Runs? {
        IntToStringInjective(n, b.n);
      }
  }

  /** `outcome_colors` without its 'default' entry (lines 120-123). */
  const OutcomeColors: map<Outcome, string> :=
    map[Wicket := "brown", Runs(0) := "green", Runs(1) := "blue", Runs(2) := "cyan",
        Runs(3) := "cyan", Runs(4) := "red", Runs(6) := "magenta"]

  /** `outcome_colors['default']`. */
  const DefaultColor: string := "gray"

  /** `outcome_colors.get(outcome, outcome_colors['default'])` (line 130). */
  function OutcomeColor(o: Outcome): string {
    if o in OutcomeColors then OutcomeColors[o] else DefaultColor
  }

  /** The colour rules: a wicket is brown and labelled "W", a four red, a six magenta, and
      exactly the run counts without an entry (5, or anything negative other than -1, or
      above 6) fall back to grey. */
  lemma OutcomeColorRules(runs: int)
    ensures OutcomeText(OutcomeOf(runs)) == "W" <==> runs == -1
    ensures OutcomeColor(OutcomeOf(runs)) == "brown" <==> runs == -1
    ensures runs == 4 ==> OutcomeColor(OutcomeOf(runs)) == "red"
    ensures runs == 6 ==> OutcomeColor(OutcomeOf(runs)) == "magenta"
    ensures OutcomeColor(OutcomeOf(runs)) == DefaultColor <==>
              runs != -1 && runs != 0 && runs != 1 && runs != 2 && runs != 3 && runs != 4 &&
              runs != 6
  {
    if runs != -1 {
      assert OutcomeText(OutcomeOf(runs)) != "W" by {
        assert IntToString(runs)[0] != 'W';
      }
    }
  }

  /** One row of a pitch-map input table (the columns the plot reads). */
  datatype Delivery = Delivery(batter: string, ballType: string, bounceX: real, bounceY: real,
                               runs: int)

  /** One `ax.scatter` call (lines 133-134). */
  datatype Marker = Marker(x: real, y: real, color: string, legend: string)

  /** Whether an earlier delivery of `ds` already has the outcome text of delivery `i`. */
  predicate SeenBefore(ds: seq<Delivery>, i: nat)
    requires i < |ds|
  {
    exists j :: 0 <= j < i && OutcomeText(OutcomeOf(ds[j].runs)) == OutcomeText(OutcomeOf(ds[i].runs))
  }

  /** The marker of delivery `i`: across is `bounce_y`, up is `PitchLength - bounce_x`, and the
      legend label is given only the first time an outcome appears. */
  function MarkerFor(ds: seq<Delivery>, i: nat): Marker
    requires i < |ds|
  {
    var o := OutcomeOf(ds[i].runs);
    Marker(ds[i].bounceY, PitchLength - ds[i].bounceX, OutcomeColor(o),
           if SeenBefore(ds, i) then "" else OutcomeText(o))
  }

  /** `plot_deliveries` (lines 126-134): one marker per delivery, in order, tracking the
      outcome texts already given a legend entry in a set. */
  method PlotDeliveries(ds: seq<Delivery>) returns (markers: seq<Marker>)
    ensures |markers| == |ds|
    ensures forall i :: 0 <= i < |ds| ==> markers[i] == MarkerFor(ds, i)
  {
    var plotted: set<string> := {};
    markers := [];
    var i := 0;
    while i < |ds|
      invariant 0 <= i <= |ds|
      invariant |markers| == i
      invariant forall k :: 0 <= k < i ==> markers[k] == MarkerFor(ds, k)
      invariant forall s :: s in plotted <==>
                  exists j :: 0 <= j < i && OutcomeText(OutcomeOf(ds[j].runs)) == s
    {
      var outcome := OutcomeOf(ds[i].runs);
      var color := OutcomeColor(outcome);
      var text := OutcomeText(outcome);
      var legend := if text !in plotted then text else "";
      plotted := plotted + {text};
      markers := markers + [Marker(ds[i].bounceY, PitchLength - ds[i].bounceX, color, legend)];
      i := i + 1;
    }
  }

  /** Some marker up to index `i` carries `text` as its legend label. */
  predicate InLegendBy(markers: seq<Marker>, text: string, i: nat) {
    exists j :: 0 <= j <= i && j < |markers| && markers[j].legend == text
  }

  /** The legend lists every outcome once: labelled markers have distinct labels, and every
      delivery's outcome is labelled on its first occurrence. */
  lemma LegendLabelsDistinct(ds: seq<Delivery>, markers: seq<Marker>)
    requires |markers| == |ds|
    requires forall i :: 0 <= i < |ds| ==> markers[i] == MarkerFor(ds, i)
    ensures forall i, j :: 0 <= i < j < |ds| && markers[i].legend != "" && markers[j].legend != "" ==>
              markers[i].legend != markers[j].legend
    ensures forall i :: 0 <= i < |ds| ==>
              InLegendBy(markers, OutcomeText(OutcomeOf(ds[i].runs)), i)
  {
    forall i, j | 0 <= i < j < |ds| && markers[i].legend != "" && markers[j].legend != ""
      ensures markers[i].legend != markers[j].legend
    {
      assert markers[i] == MarkerFor(ds, i) && markers[j] == MarkerFor(ds, j);
    }
    forall i | 0 <= i < |ds|
      ensures InLegendBy(markers, OutcomeText(OutcomeOf(ds[i].runs)), i)
    {
      var j := FirstOccurrenceLabelled(ds, markers, i);
      assert 0 <= j <= i && markers[j].legend == OutcomeText(OutcomeOf(ds[i].runs));
    }
  }

  /** The first delivery with the outcome text of delivery `i` carries that text as its
      legend label. */
  lemma {:induction false} FirstOccurrenceLabelled(ds: seq<Delivery>, markers: seq<Marker>,
                                                   i: nat)
    returns (j: nat)
    requires |markers| == |ds|
    requires forall k :: 0 <= k < |ds| ==> markers[k] == MarkerFor(ds, k)
    requires i < |ds|
    ensures j <= i && markers[j].legend == OutcomeText(OutcomeOf(ds[i].runs))
    decreases i
  {
    if SeenBefore(ds, i) {
      var k :| 0 <= k < i && OutcomeText(OutcomeOf(ds[k].runs)) == OutcomeText(OutcomeOf(ds[i].runs));
      j := FirstOccurrenceLabelled(ds, markers, k);
    } else {
      assert markers[i] == MarkerFor(ds, i);
      j := i;
    }
  }

  /** Markers land in the shaded band of their length: a delivery that bounces between one
      metre behind the batter's stumps and the bowler's stumps is drawn inside the region that
      the pace table (or the spin table) gives to its classified length, and such a region
      exists and owns the marker's position. */
  lemma MarkerInItsRegion(ds: seq<Delivery>, i: nat)
    requires i < |ds|
    requires -1.0 <= ds[i].bounceX <= PitchLength
    ensures forall r ::
              (0 <= r < |LengthRegions1| && LengthRegions1[r].length == ClassifyLength1(ds[i].bounceX)) ==>
              LengthRegions1[r].yMin <= MarkerFor(ds, i).y <= LengthRegions1[r].yMax
    ensures forall r ::
              (0 <= r < |LengthRegions2| && LengthRegions2[r].length == ClassifyLength2(ds[i].bounceX)) ==>
              LengthRegions2[r].yMin <= MarkerFor(ds, i).y <= LengthRegions2[r].yMax
    ensures exists r :: && 0 <= r < |LengthRegions1|
                        && LengthRegions1[r].length == ClassifyLength1(ds[i].bounceX)
                        && Owns(LengthRegions1, r, MarkerFor(ds, i).y)
    ensures exists r :: && 0 <= r < |LengthRegions2|
                        && LengthRegions2[r].length == ClassifyLength2(ds[i].bounceX)
                        && Owns(LengthRegions2, r, MarkerFor(ds, i).y)
  {
    var y := ds[i].bounceX;
    PaceRegionsAgree(y);
    SpinRegionsAgree(y);
    var r1 :| 0 <= r1 < |LengthRegions1| && LengthRegions1[r1].length == ClassifyLength1(y);
    assert Owns(LengthRegions1, r1, MarkerFor(ds, i).y);
    var r2 :| 0 <= r2 < |LengthRegions2| && LengthRegions2[r2].length == ClassifyLength2(y);
    assert Owns(LengthRegions2, r2, MarkerFor(ds, i).y);
  }

  /** A table read from a CSV file: its column names and its rows. */
  datatype Table = Table(columns: set<string>, rows: seq<Delivery>)

  /** Columns checked before any filtering (line 20). `ball_type` is not among them. */
  const RequiredColumns: set<string> := {"bounce_x", "bounce_y", "batter", "runs"}

  /** Why no pitch map is drawn. */
  datatype PlotError =
    | MissingColumns             // the ValueError of line 23
    | MissingColumn(name: string) // a KeyError from indexing a column that is absent
    | NoDeliveries               // the ValueError of line 34

  /** Rows satisfying `keep`, in their original order (pandas boolean indexing): every kept
      row appears as often as in `rows`, every other row not at all. The order is stated by
      `SelectSingle` and `SelectConcat`. */
  function Select(rows: seq<Delivery>, keep: Delivery -> bool): (r: seq<Delivery>)
    ensures |r| <= |rows|
    ensures forall d :: d in r <==> d in rows && keep(d)
    ensures forall d :: multiset(r)[d] == if keep(d) then multiset(rows)[d] else 0
    decreases |rows|
  {
    if |rows| == 0 then []
    else
      var rest := Select(rows[1..], keep);
      assert rows == [rows[0]] + rows[1..];
      assert multiset(rows) == multiset{rows[0]} + multiset(rows[1..]);
      if keep(rows[0]) then [rows[0]] + rest else rest
  }

  /** One row is kept exactly when it satisfies the mask. */
  lemma SelectSingle(d: Delivery, keep: Delivery -> bool)
    ensures Select([d], keep) == if keep(d) then [d] else []
  {
    assert [d][1..] == [];
  }

  /** Selecting from a concatenation selects from each part and keeps the parts in order;
      with `SelectSingle` this fixes `Select` as the order-preserving subsequence. */
  lemma {:induction false} SelectConcat(a: seq<Delivery>, b: seq<Delivery>, keep: Delivery -> bool)
    ensures Select(a + b, keep) == Select(a, keep) + Select(b, keep)
    decreases |a|
  {
    if |a| == 0 {
      assert a + b == b;
    } else {
      assert (a + b)[1..] == a[1..] + b;
      SelectConcat(a[1..], b, keep);
    }
  }

  /** The deliveries drawn on the two plots: pace to one batter, spin to the other. */
  datatype Selection = Selection(pace: seq<Delivery>, spin: seq<Delivery>)

  function IsPaceTo(batter: string): Delivery -> bool {
    (d: Delivery) => d.batter == batter && d.ballType == "Seam"
  }

  function IsSpinTo(batter: string): Delivery -> bool {
    (d: Delivery) => d.batter == batter && d.ballType == "Spin"
  }

  /** Validation and filtering of lines 19-34, in the order the script performs them. */
  function SelectDeliveries(t1: Table, t2: Table, batter1: string, batter2: string)
    : (r: Result<Selection, PlotError>)
    ensures r == Failure(MissingColumns) <==>
              !(RequiredColumns <= t1.columns && RequiredColumns <= t2.columns)
    ensures r == Failure(MissingColumn("ball_type")) <==>
              && RequiredColumns <= t1.columns && RequiredColumns <= t2.columns
              && ("ball_type" !in t1.columns || "ball_type" !in t2.columns)
    ensures r == Failure(NoDeliveries) <==>
              && RequiredColumns <= t1.columns && RequiredColumns <= t2.columns
              && "ball_type" in t1.columns && "ball_type" in t2.columns
              && ((forall d :: d in t1.rows ==> !(d.batter == batter1 && d.ballType == "Seam")) ||
                  (forall d :: d in t2.rows ==> !(d.batter == batter2 && d.ballType == "Spin")))
    ensures r.Success? ==>
              && r.value.pace == Select(t1.rows, IsPaceTo(batter1))
              && r.value.spin == Select(t2.rows, IsSpinTo(batter2))
              && |r.value.pace| > 0 && |r.value.spin| > 0
              && (forall d :: multiset(r.value.pace)[d] ==
                    if d.batter == batter1 && d.ballType == "Seam" then multiset(t1.rows)[d] else 0)
              && (forall d :: multiset(r.value.spin)[d] ==
                    if d.batter == batter2 && d.ballType == "Spin" then multiset(t2.rows)[d] else 0)
              && (forall d :: d in r.value.pace <==>
                    d in t1.rows && d.batter == batter1 && d.ballType == "Seam")
              && (forall d :: d in r.value.spin <==>
                    d in t2.rows && d.batter == batter2 && d.ballType == "Spin")
  {
    if !(RequiredColumns <= t1.columns && RequiredColumns <= t2.columns) then
      Failure(MissingColumns)
    else if "ball_type" !in t1.columns || "ball_type" !in t2.columns then
      Failure(MissingColumn("ball_type"))
    else
      var pace := Select(t1.rows, IsPaceTo(batter1));
      var spin := Select(t2.rows, IsSpinTo(batter2));
      assert |pace| > 0 ==> pace[0] in pace;
      assert |spin| > 0 ==> spin[0] in spin;
      if |pace| == 0 || |spin| == 0 then Failure(NoDeliveries)
      else Success(Selection(pace, spin))
  }

  /** Number of values of `np.arange(0, stop, 2)`: the even numbers below `stop`. */
  function EvenTickCount(stop: real): (n: nat)
    ensures n == 0 || 2.0 * (n - 1) as real < stop
    ensures 2.0 * n as real >= stop
  {
    if stop <= 0.0 then 0
    else
      var half := stop / 2.0;
      if half.Floor as real == half then half.Floor else half.Floor + 1
  }

  /** The ticks of lines 167-171: the label is the distance from the batter's stumps in
      whole metres, the position is where that distance is plotted. */
  datatype Tick = Tick(position: real, legend: string)

  function YTicks(): seq<Tick> {
    var n := EvenTickCount(PitchLength + 2.0);
    seq(n, k requires 0 <= k < n => Tick(PitchLength - 2.0 * k as real, IntToString(2 * k)))
  }

  /** Twelve ticks, labelled 0, 2, ..., 22, each placed where that distance from the batter is
      plotted, from the top of the plot down. */
  lemma YTicksLayout()
    ensures |YTicks()| == 12
    ensures forall k :: 0 <= k < 12 ==>
              && YTicks()[k].legend == IntToString(2 * k)
              && ParseInt(YTicks()[k].legend) == Some(2 * k)
              && YTicks()[k].position == PitchLength - (2 * k) as real
    ensures forall k :: 0 <= k < 11 ==> YTicks()[k + 1].position < YTicks()[k].position
  {
    assert EvenTickCount(PitchLength + 2.0) == 12;
    forall k | 0 <= k < 12
      ensures ParseInt(YTicks()[k].legend) == Some(2 * k)
    {
      IntToStringRoundTrip(2 * k);
    }
  }
}

=== FILE: wrappers.dfy ===
/** Failure-compatible wrappers used throughout the model: `Option` for lookups that may
    find nothing, `Result` for computations that raise in the scripts. */
module Wrappers {

  datatype Option<+T> = None | Some(value: T)

  datatype Result<+T, +E> = Success(value: T) | Failure(error: E) {

    predicate IsFailure() {
      Failure?
    }

    function PropagateFailure<U>(): Result<U, E>
      requires Failure?
    {
      Failure(error)
    }

    function Extract(): T
      requires Success?
    {
      value
    }
  }
}
